=== FILE: README.md ===
# Hill and Playfair ciphers

This project models the two classical ciphers of the repository: the Hill
cipher (`hill2.py`, class `HillCipherGUI`) and the Playfair cipher
(`pfcipher.py`, class `PlayfairCipherGUI`). Both are written as tkinter GUIs.
Here their arithmetic and text rules are pure Dafny functions, each with
lemmas about it.

Module layout:

- `Wrappers`: `Option` and `Result`.
- `Modular`: Euclidean division facts. For a positive divisor, Dafny's `%`
  agrees with Python's, including `(x - 1) % 5` at `x = 0`.
- `Text`: the `text.replace(" ", "").upper()` normalisation both ciphers
  apply first, with ASCII upper-casing.
- `HillMatrix`: integer vectors and matrices. It has the product `np.dot`
  computes (in unbounded integers), an exact cofactor determinant, and the algebra showing that a
  key inverse modulo 26 undoes the key.
- `Hill`: the key-size check, the singular-key check, text preparation with
  `'X'` padding, and the block multiply. It also has the brute-force
  `modinv`, encryption, and an exact-integer decryption.
- `PlayfairKey`: `prepare_key`, a 25-letter alphabet without J, and
  `generate_matrix`, which lays the key out row by row in a 5×5 square. It
  also has `find_position`.
- `Playfair`: digraph splitting, the same-row / same-column / rectangle pair
  rules, and the whole-text loops.
- `HillExamples`, `PlayfairExamples`: worked cases. Key `[[3, 3], [2, 5]]`
  encrypts "HELP" to "HIAT". Key MONARCHY gives the rows
  MONAR/CHYBD/EFGIK/LPQST/UVWXZ and encrypts "INSTRUMENTS" to
  "GATLMZCLRQXA".

The source computes the Hill decryption matrix in floating point. The model
replaces it with an integer matrix `inverse` that the caller supplies. The
round-trip lemma requires `inverse · key ≡ I (mod 26)`. For 2×2 keys, the
adjugate times the modular inverse of the determinant is proved to be such
a matrix.

The GUI reports errors in dialogs. The model returns them as
`Failure(...)` values instead: `HillError` for the Hill cipher and
`PlayfairError.MissingInput` for Playfair.

## Model

| member | source | states |
|---|---|---|
| Hill.CheckKeySize | hill2.py:68-72 | a size is accepted exactly when 2 ≤ size ≤ 8, and then it is the block size; any other integer gives `InvalidKeySize` |
| Hill.PrepareKey | hill2.py:99-104 | the grid is returned as the key exactly when its determinant is non-zero; otherwise `SingularKey` |
| Hill.PadX | hill2.py:117-118 | the padded text starts with the text, continues only with 'X', has a length that is a multiple of n, and is the shortest such extension (no shorter length at or above the text's is a multiple) |
| Hill.PadXBound | hill2.py:117-118 | fewer than n padding letters are added |
| Hill.PrepareText | hill2.py:116-119 | the result length is the least multiple of n at or above the normalised length; each leading value is the normalised letter's `ord − 65`, and the padding values are 23 |
| Hill.PrepareTextInRange | hill2.py:116-119 | a text that normalises to letters A–Z prepares to values in [0, 25] |
| Hill.PreparedLetters | hill2.py:116-119 | mapping the prepared values back to letters gives the normalised text padded with 'X' |
| Hill.PrepareCipherText | hill2.py:184 | preparing an upper-case text of whole blocks only maps each letter to its code, adding no padding |
| Hill.Code | hill2.py:119 | the letters A–Z are exactly the characters whose code `ord(c) − 65` lies in [0, 25] |
| Hill.Letter | hill2.py:141 | `chr(v + 65)` of a value in [0, 25] is the upper-case letter whose code is v |
| Hill.ToLetters | hill2.py:140-141 | `chr(v + 65)` of values in [0, 25] gives upper-case letters whose codes are those values |
| Hill.ApplyBlocks | hill2.py:137-141 | the block loop keeps the length, and every output value lies in [0, 25] |
| Hill.ApplyBlocksAt | hill2.py:137-139 | output block j is the key times input block j, modulo 26, and depends on nothing else |
| Hill.ApplyBlocksAppend | hill2.py:137-141 | encrypting a concatenation of whole blocks is concatenating their encryptions |
| Hill.ApplyBlocksInverse | hill2.py:187-191 | the block loop with an inverse of the key modulo 26 undoes the block loop with the key, on values in [0, 25] |
| Hill.SearchInverse | hill2.py:156-159 | the search from x returns the least y in [x, m) with (a·y) mod m = 1, and None exactly when there is none |
| Hill.ModInv | hill2.py:145-159 | a result x satisfies 1 ≤ x < m, (a·x) mod m = 1, and is the least such; None exactly when no x in [1, m) works |
| Hill.Encrypt | hill2.py:121-143 | a singular key gives `SingularKey`; otherwise an empty text gives `EmptyText`, and any other text succeeds with upper-case letters, as many as the prepared text (`Hill.EncryptAt` gives each letter) |
| Hill.Decrypt | hill2.py:161-193 | the error order is: singular key, then a determinant with no inverse mod 26, then empty text; otherwise it succeeds with upper-case letters, as many as the prepared text (`Hill.DecryptAt` gives each letter) |
| Hill.EncryptAt | hill2.py:134-141 | when encryption succeeds, letter i of cipher block j has the code Σₜ key[i][t] · v[t] mod 26, where v is block j of the prepared plain text |
| Hill.DecryptAt | hill2.py:184-191 | when decryption succeeds, letter i of plain block j has the code Σₜ inverse[i][t] · c[t] mod 26, where c is block j of the prepared cipher text |
| Hill.AdjugateInverse2 | hill2.py:169-177 | a 2×2 matrix built from the adjugate `[[d, −b], [−c, a]]` and a determinant inverse, each entry reduced mod 26; `Hill.AdjugateInverse2Correct` proves it inverts the key |
| Hill.AdjugateInverse2Correct | hill2.py:169-177 | for a 2×2 key, the adjugate times an inverse of the determinant mod 26, reduced mod 26, is an inverse of the key modulo 26 |
| Hill.RoundTrip | hill2.py:171-191 | given an inverse of the key mod 26 and a text that normalises to a non-empty text of letters A–Z, decrypting the cipher text returns the normalised plain text padded with 'X' |
| Hill.RoundTrip2 | hill2.py:169-191 | for a 2×2 key with invertible determinant, decrypting with the adjugate inverse returns the padded plain text |
| Hill.BlankRoundTrip | hill2.py:129-182 | a non-empty text of spaces only encrypts to the empty cipher text, and decrypting that is refused with `EmptyText` |
| HillMatrix.Det2 | hill2.py:101 | the exact determinant of a 2×2 matrix is ad − bc |
| HillMatrix.Det | hill2.py:101 | the exact determinant by cofactor expansion along the first row; it has no contract of its own, and `Det1`, `Det2` and `Det3` give its value for sizes 1, 2 and 3 |
| HillMatrix.Det1 | hill2.py:101 | the determinant of a 1×1 matrix is its entry |
| HillMatrix.Det3 | hill2.py:101 | the determinant of a 3×3 matrix is given by the rule of Sarrus |
| HillMatrix.MulVecMod | hill2.py:139 | entry i is the value in [0, 25] congruent mod 26 to row i of the matrix times the block, as `np.dot(key, chunk) % 26` gives; decryption uses the same multiply with the inverse |
| HillMatrix.DotMulVec | hill2.py:189 | multiplying by m after k is multiplying by the product m·k |
| HillMatrix.DotCongruent | hill2.py:139 | reducing the vector modulo 26 first does not change a dot product modulo 26 |
| HillMatrix.InverseUndoes | hill2.py:189 | an inverse of the key modulo 26 recovers every block of values in [0, 25] from the key's product mod 26 |
| Text.StripSpaces | hill2.py:116 | the result holds exactly the non-space characters of the input and is no longer |
| Text.StripSpacesAppend | hill2.py:116 | stripping spaces distributes over concatenation |
| Text.UpperChar | hill2.py:116 | a lower-case ASCII letter becomes the upper-case letter 32 code points below it; any other character is kept |
| Text.Normalize | hill2.py:116 | the normalised text is no longer than the input and holds no space and no lower-case ASCII letter |
| Text.NormalizeChar | hill2.py:116 | the empty text normalises to itself; a single space vanishes and any other single character is upper-cased |
| Text.NormalizeAppend | hill2.py:116 | normalising a concatenation is concatenating the normalised parts, so with `NormalizeChar` the result is the non-space characters upper-cased, in order |
| Text.NormalizeFixesUpper | hill2.py:116 | a text of upper-case letters is left unchanged |
| Text.NormalizeLetters | hill2.py:116 | a text of ASCII letters and spaces normalises to upper-case letters |
| HillExamples.KeySizeBoundaries | hill2.py:70-72 | sizes 1 and 9 are refused; 2 and 8 are accepted |
| HillExamples.SingularKeyRefused | hill2.py:101-103 | the key [[1, 0], [0, 0]] is refused as singular |
| HillExamples.ModInvExamples | hill2.py:156-159 | modinv(13, 26) and modinv(4, 26) are None, and modinv(3, 26) = 9 |
| HillExamples.HelpExample | hill2.py:137-141 | key [[3, 3], [2, 5]] encrypts "HELP" to "HIAT" |
| HillExamples.Determinant13 | hill2.py:171-175 | a key of determinant 13 encrypts, but decryption refuses it |
| PlayfairKey.Dedup | pfcipher.py:34 | the result has no repeated character, holds exactly the characters of the input, and keeps them in order of first occurrence |
| PlayfairKey.DedupNoDup | pfcipher.py:34 | a text without repeats is unchanged |
| PlayfairKey.Delete | pfcipher.py:38 | `replace(ch, "")` keeps exactly the other characters; on a text without repeats, the result has none and keeps the order |
| PlayfairKey.DeleteAt | pfcipher.py:38 | in a text without repeats, deleting the character at k removes exactly that position |
| PlayfairKey.DeleteAbsent | pfcipher.py:38 | deleting a character that does not occur changes nothing |
| PlayfairKey.DeleteAll | pfcipher.py:37-38 | the remaining alphabet holds exactly the letters not in the key, without repeats and in alphabet order |
| PlayfairKey.AlphabetFacts | pfcipher.py:36 | the alphabet has 25 distinct letters |
| PlayfairKey.PrepareKey | pfcipher.py:31-40 | the key string has no repeats, starts with the deduplicated normalised key, continues with alphabet letters in order, holds exactly the key's characters and the alphabet, and has at least 25 characters |
| PlayfairKey.PrepareKeyLength | pfcipher.py:36-40 | the key string has exactly 25 characters iff every normalised key character is an alphabet letter |
| PlayfairKey.Layout | pfcipher.py:59-65 | cell (i, j) is character 5i + j of the key string |
| PlayfairKey.GenerateMatrix | pfcipher.py:58-66 | the square is 5×5, cell (i, j) is `prepare_key(key)[5i + j]`, and no letter appears twice |
| PlayfairKey.SquareIsPermutation | pfcipher.py:58-66 | with a key of alphabet letters only, the square holds each alphabet letter in exactly one cell and nothing else |
| PlayfairKey.FindFrom | pfcipher.py:69-72 | the scan from index t returns the first cell at or after t that holds the letter |
| PlayfairKey.FindPosition | pfcipher.py:68-72 | the returned cell holds the letter, and no earlier cell in row-major order does |
| PlayfairKey.FindPositionOf | pfcipher.py:68-72 | in a square without repeats, every letter is found at its own cell |
| PlayfairExamples.MonarchyKey | pfcipher.py:31-40 | the key string of MONARCHY is MONARCHYBDEFGIKLPQSTUVWXZ |
| PlayfairExamples.MonarchyMatrix | pfcipher.py:58-66 | the square of MONARCHY is MONAR/CHYBD/EFGIK/LPQST/UVWXZ |
| Playfair.PrepareLetters | pfcipher.py:43-45 | the text keeps its normalised length and has no J and no space; a position holds I exactly when the normalised text has I or J there, and otherwise holds the normalised character |
| PlayfairExamples.JamLetters | pfcipher.py:43-45 | "j am" is prepared as "IAM" |
| Playfair.Split | pfcipher.py:47-55 | dropping the padding X's and concatenating gives back the text; every copied pair has two distinct letters; the first digraph starts with the first letter, and after a padded letter the next digraph starts with that same letter (the second of a doubled pair); the count lies between ⌈len/2⌉ and len |
| Playfair.SplitUnique | pfcipher.py:47-55 | any digraph sequence that rebuilds the text, copies only distinct letters and continues a padded letter with that same letter is the split, so the contract of `Split` determines it |
| Playfair.PrepareText | pfcipher.py:42-56 | the strings are the two-letter forms of the digraphs `Split` makes of the prepared letters, so `Unsplit` rebuilds those letters from them; every digraph has two letters, none is J or a space, a digraph of equal letters is "XX", and the count lies between ⌈len/2⌉ and len |
| Playfair.LettersOfSplit | pfcipher.py:49-55 | every digraph of a text with no J and no space has two letters, neither J nor space, and equal letters only as "XX" |
| Playfair.LoneXPrepared | pfcipher.py:50-52 | a lone X is padded to the single digraph "XX" |
| Playfair.DoubledPrepared | pfcipher.py:50-52 | a doubled alphabet letter other than X is padded into two digraphs |
| Playfair.PrepareLettersFixes | pfcipher.py:43-45 | a text of alphabet letters is unchanged by the preparation |
| Playfair.SplitFlatten | pfcipher.py:49-55 | re-splitting a concatenation of distinct-letter pairs, followed by any text, gives those pairs, then the digraphs of that text |
| Playfair.SplitFlattenAll | pfcipher.py:49-55 | re-splitting a concatenation of distinct-letter pairs gives exactly those pairs |
| Playfair.EncryptCells | pfcipher.py:78-83 | the cells picked by the pair rules are in the grid |
| Playfair.DecryptCells | pfcipher.py:123-128 | the cells picked by the inverse rules are in the grid |
| Playfair.CellsRoundTrip | pfcipher.py:119-128 | the decryption cells undo the encryption cells, and the reverse holds too |
| Playfair.EncryptCellsDistinct | pfcipher.py:78-83 | two cells map to the same cell exactly when they were the same cell |
| Playfair.EncryptCellsMoves | pfcipher.py:78-79 | a pair of equal cells never maps back to its own cell |
| Playfair.EncryptPair | pfcipher.py:74-83 | the encrypted pair is two letters of the square |
| Playfair.DecryptPair | pfcipher.py:119-128 | the decrypted pair is two letters of the square |
| Playfair.PairRoundTrip | pfcipher.py:119-128 | in a square without repeats, `decrypt_pair(encrypt_pair(p)) == p` |
| Playfair.PairRoundTripReverse | pfcipher.py:74-83 | in a square without repeats, `encrypt_pair(decrypt_pair(p)) == p` |
| Playfair.EncryptPairDistinct | pfcipher.py:74-83 | the encrypted letters are equal exactly when the plain letters are |
| Playfair.EncryptPairs | pfcipher.py:96-98 | the cipher text has two letters per digraph, all in the square |
| Playfair.DecryptPairs | pfcipher.py:113-115 | the plain text has two letters per digraph, all in the square |
| Playfair.EncryptPairsAt | pfcipher.py:96-98 | letters 2k and 2k + 1 of the loop's output are `encrypt_pair` of digraph k |
| Playfair.DecryptPairsAt | pfcipher.py:113-115 | letters 2k and 2k + 1 of the loop's output are `decrypt_pair` of digraph k |
| Playfair.EncryptEach | pfcipher.py:96-98 | one encrypted pair per digraph, each in the square; `Playfair.EncryptPairsFlatten` shows the loop's output is these pairs concatenated |
| Playfair.EncryptPairsFlatten | pfcipher.py:96-98 | the loop's output is the encrypted digraphs, concatenated |
| Playfair.DecryptEach | pfcipher.py:113-115 | decrypting every encrypted digraph gives the digraphs back, concatenated |
| Playfair.EncryptText | pfcipher.py:85-100 | the call fails exactly when the key or the text is empty; otherwise it gives two square letters per digraph (`Playfair.EncryptTextAt` gives each pair) |
| Playfair.DecryptText | pfcipher.py:102-117 | the call fails exactly when the key or the text is empty; otherwise it gives two square letters per digraph of the re-prepared cipher text (`Playfair.DecryptTextAt` gives each pair) |
| Playfair.EncryptTextAt | pfcipher.py:93-98 | when encryption succeeds, letters 2k and 2k + 1 of the cipher text are `encrypt_pair` of prepared digraph k in the key's square |
| Playfair.DecryptTextAt | pfcipher.py:110-115 | when decryption succeeds, letters 2k and 2k + 1 of the plain text are `decrypt_pair` of re-prepared cipher digraph k in the key's square |
| Playfair.PlainPairs | pfcipher.py:93-98 | with an alphabet-only key and text and no "XX" digraph, every digraph is in the square, and the encrypted digraphs have distinct letters |
| Playfair.TextRoundTrip | pfcipher.py:102-117 | with a non-empty alphabet-only key, a text of alphabet letters that is not blank after preparation, and no "XX" digraph, decrypting the cipher text gives the plain text's digraphs, concatenated |
| Playfair.BlankRoundTrip | pfcipher.py:85-117 | a non-empty text of spaces only prepares to no digraph, encrypts to the empty cipher text, and decrypting that is refused with `MissingInput` |
| Playfair.LoneXRoundTrip | pfcipher.py:110-115 | for any alphabet-only key, the plain text "X" encrypts to a doubled letter and decrypts to four letters, not the "XX" it was prepared as |
| Playfair.LoneXCipher | pfcipher.py:93-98 | a lone X encrypts to a doubled alphabet letter other than X |
| Playfair.DoubledDecrypt | pfcipher.py:110-115 | a doubled letter other than X decrypts to four letters |
| PlayfairExamples.InstrumentsDigraphs | pfcipher.py:42-56 | "INSTRUMENTS" splits as IN ST RU ME NT SX |
| PlayfairExamples.InstrumentsEncrypt | pfcipher.py:85-100 | key MONARCHY encrypts "INSTRUMENTS" to "GATLMZCLRQXA" |
| PlayfairExamples.InstrumentsDecrypt | pfcipher.py:102-117 | key MONARCHY decrypts "GATLMZCLRQXA" to "INSTRUMENTSX" |

## Left out

- The tkinter widgets, `messagebox` dialogs, `main`, and the `__init__`
  layout of both classes are left out. They are user interface. Reading the
  entry fields becomes function parameters, and a dialog becomes a
  `Failure` value.
- Hill: the `int()` parsing of the key entries and the size field is left
  out, along with its "valid integer" dialogs. The model takes integers.
- Hill: `self.key_entries` accumulates rows across repeated
  `create_key_entries` calls. This GUI state is not modelled. The block size
  is the size of the key grid.
- Hill: numpy's floating-point `np.linalg.det` and `np.linalg.inv` are
  replaced.
  - The singular check uses the exact cofactor determinant.
  - The modular inverse of the determinant uses that exact value, so
    `int(round(...))` disappears.
  - The decryption matrix `key_inv * det * det_inv % 26` becomes a supplied
    integer matrix. Its correctness is a precondition of the round trip,
    and is proved for the 2×2 adjugate construction.
- Hill: `np.array` of the parsed key is an int64 array, so `np.dot` in the
  block multiply wraps silently for very large key entries. The model's
  integers are unbounded, and this overflow is not modelled.
- Hill: `key_inv_det_inv` is a numpy float array, so every value of the
  decrypt multiply is a float, and Python's `chr` rejects a float with a
  TypeError. As written, `decrypt_text` therefore shows no text for any
  cipher text that has a block. The model's `Decrypt` is the intended
  integer decryption: it applies the integer matrix `inverse` and turns
  each value into a letter.
- Text.Normalize: upper-cases ASCII letters only. Python's `str.upper` on
  other characters is not modelled.
- The `print` calls of `prepare_key` are console output and are left out.
- PlayfairKey.FindPosition: requires the letter to be in the square. The
  source falls off the loop, returns None, and then fails when the caller
  unpacks it. That crash is not modelled.
- Playfair.EncryptText: requires every prepared digraph to lie in the
  square, which follows from `find_position`'s precondition. Letters outside
  the square, such as digits, are not modelled.
- Playfair.DecryptText: requires every re-prepared digraph of the cipher
  text to lie in the square, for the same reason.
- Playfair.TextRoundTrip: is stated only for a non-empty key of alphabet
  letters and a text of alphabet letters (after J becomes I) that is not
  blank after preparation and has no "XX" digraph. `Playfair.LoneXRoundTrip`
  shows that the "XX" condition cannot be dropped, and
  `Playfair.BlankRoundTrip` that the non-blank condition cannot.

## Behaviour worth knowing

- Hill text preparation does not reject characters outside A–Z. A digit or
  other character is mapped to `ord(c) − 65` like any letter, and the block
  multiply reduces the result modulo 26.
- The Playfair key string does not fold J into I. A key containing J, or any
  character outside the 25-letter alphabet, gives a key string longer than 25
  characters (`PlayfairKey.PrepareKeyLength`). The square takes its first 25
  characters, so it need not be a permutation of the alphabet.
- Hill checks only that the raw text is non-empty. A text of spaces only
  encrypts to the empty cipher text, and decrypting that is refused with
  "Please enter cipher text." (`Hill.BlankRoundTrip`).
- Playfair checks only that the raw key and text are non-empty. A text of
  spaces only encrypts to the empty cipher text, and decrypting that is
  refused (`Playfair.BlankRoundTrip`). A key of spaces is accepted and
  gives the plain alphabet square.
- The Playfair round trip does not hold for every normalised text. A padding
  digraph "XX" encrypts to a doubled letter, and re-splitting that letter at
  decryption adds padding (`Playfair.LoneXRoundTrip`).

=== FILE: hill.dfy ===
/** The Hill cipher of `HillCipherGUI` (hill2.py), lifted out of the GUI:
    key-size check, key preparation, text preparation, block encryption,
    the brute-force modular inverse and an exact-integer decryption. */
module Hill {
  import opened Wrappers
  import opened Modular
  import opened Text
  import opened HillMatrix

  /** The dialogs the GUI shows instead of a result. */
  datatype HillError =
    | InvalidKeySize      // "Key size must be between 2 and 8."
    | SingularKey         // "Key matrix is singular."
    | NotInvertibleMod26  // "Determinant has no multiplicative inverse modulo 26."
    | EmptyText           // "Please enter plain text." / "Please enter cipher text."

  const MinKeySize: int := 2
  const MaxKeySize: int := 8

  /** The size check of `create_key_entries`: the block size the key grid will have. */
  function CheckKeySize(size: int): (r: Result<nat, HillError>)
    ensures r.Success? <==> MinKeySize <= size <= MaxKeySize
    ensures r.Success? ==> r.value == size
    ensures r.Failure? ==> r.error == InvalidKeySize
  {
    if size < 2 || size > 8 then Failure(InvalidKeySize) else Success(size)
  }

  /** `prepare_key` on a grid of integer entries: the key unless it is singular. */
  function PrepareKey(grid: Matrix): (r: Result<Matrix, HillError>)
    requires IsSquare(grid)
    ensures r.Success? <==> Det(grid) != 0
    ensures r.Success? ==> r.value == grid
    ensures r.Failure? ==> r.error == SingularKey
  {
    if Det(grid) == 0 then Failure(SingularKey) else Success(grid)
  }

  /** The `while len(text) % n != 0: text += 'X'` loop. The result is the
      shortest extension of `t` by `'X'`s whose length is a multiple of `n`. */
  function PadX(t: string, n: nat): (r: string)
    requires n >= 1
    ensures IsMultiple(|r|, n)
    ensures |t| <= |r|
    ensures forall len :: |t| <= len < |r| ==> !IsMultiple(len, n)
    ensures r[..|t|] == t
    ensures forall i :: |t| <= i < |r| ==> r[i] == 'X'
    decreases if |t| % n == 0 then 0 else n - |t| % n
  {
    if |t| % n == 0 then t
    else
      ModSucc(|t|, n);
      PadX(t + "X", n)
  }

  /** Fewer than `n` padding letters are ever added. */
  lemma PadXBound(t: string, n: nat)
    requires n >= 1
    ensures |PadX(t, n)| < |t| + n
  {
    var m := MultipleInWindow(|t|, n);
  }

  /** `ord(c) - 65`: the letters A-Z are exactly the characters with a code in [0, 25]. */
  function Code(c: char): (r: int)
    ensures IsUpperLetter(c) <==> 0 <= r < 26
  {
    c as int - 65
  }

  /** `chr(v + 65)` on a value the block multiply produced: the letter whose code is `v`. */
  function Letter(v: int): (r: char)
    requires 0 <= v < 26
    ensures IsUpperLetter(r) && Code(r) == v
  {
    (v + 65) as char
  }

  /** `prepare_text` with block size `n`: the normalised text padded with `'X'`
      to the next multiple of `n`, as letter codes. */
  function PrepareText(text: string, n: nat): (r: seq<int>)
    requires n >= 1
    ensures IsMultiple(|r|, n)
    ensures |Normalize(text)| <= |r| < |Normalize(text)| + n
    ensures forall len :: |Normalize(text)| <= len < |r| ==> !IsMultiple(len, n)
    ensures forall i :: 0 <= i < |Normalize(text)| ==> r[i] == Code(Normalize(text)[i])
    ensures forall i :: |Normalize(text)| <= i < |r| ==> r[i] == 23
  {
    var padded := PadX(Normalize(text), n);
    PadXBound(Normalize(text), n);
    assert forall i :: 0 <= i < |Normalize(text)| ==> padded[i] == padded[..|Normalize(text)|][i];
    seq(|padded|, i requires 0 <= i < |padded| => Code(padded[i]))
  }

  /** Every value lies in [0, 25]. */
  predicate InRange(v: seq<int>)
  {
    forall i :: 0 <= i < |v| ==> 0 <= v[i] < 26
  }

  /** Text that normalises to letters A-Z prepares to codes in [0, 25]. */
  lemma PrepareTextInRange(text: string, n: nat)
    requires n >= 1
    requires forall i :: 0 <= i < |Normalize(text)| ==> IsUpperLetter(Normalize(text)[i])
    ensures InRange(PrepareText(text, n))
  {
  }

  /** The cipher text of a code sequence: `chr(v + 65)` for each value. */
  function ToLetters(v: seq<int>): (s: string)
    requires InRange(v)
    ensures |s| == |v|
    ensures forall i :: 0 <= i < |s| ==> IsUpperLetter(s[i]) && Code(s[i]) == v[i]
  {
    seq(|v|, i requires 0 <= i < |v| => Letter(v[i]))
  }

  /** The loop `for i in range(0, len(v), n): np.dot(k, v[i:i+n]) % 26`,
      shared by encryption and decryption. */
  function ApplyBlocks(k: Matrix, v: seq<int>): (r: seq<int>)
    requires IsSquare(k) && |k| >= 1 && IsMultiple(|v|, |k|)
    ensures |r| == |v|
    ensures InRange(r)
    decreases |v|
  {
    if |v| == 0 then []
    else
      MultipleMinusBlock(|v|, |k|);
      MulVecMod(k, v[..|k|]) + ApplyBlocks(k, v[|k|..])
  }

  /** Block `j` of `v` for block size `n`. */
  function Block(v: seq<int>, n: nat, j: nat): seq<int>
    requires j * n + n <= |v|
  {
    v[j * n .. j * n + n]
  }

  /** Cipher block `j` is the key times plain block `j`, modulo 26, and depends on nothing else. */
  lemma {:induction false} ApplyBlocksAt(k: Matrix, v: seq<int>, j: nat)
    requires IsSquare(k) && |k| >= 1 && IsMultiple(|v|, |k|)
    requires j * |k| + |k| <= |v|
    ensures Block(ApplyBlocks(k, v), |k|, j) == MulVecMod(k, Block(v, |k|, j))
    decreases j
  {
    var n := |k|;
    MultipleMinusBlock(|v|, n);
    var rest := v[n..];
    assert ApplyBlocks(k, v) == MulVecMod(k, v[..n]) + ApplyBlocks(k, rest);
    if j > 0 {
      assert (j - 1) * n + n == j * n;
      ApplyBlocksAt(k, rest, j - 1);
      assert Block(v, n, j) == Block(rest, n, j - 1);
    }
  }

  /** Encryption is blockwise: encrypting whole blocks one after another is
      encrypting their concatenation. */
  lemma {:induction false} ApplyBlocksAppend(k: Matrix, a: seq<int>, b: seq<int>)
    requires IsSquare(k) && |k| >= 1 && IsMultiple(|a|, |k|) && IsMultiple(|b|, |k|)
    ensures IsMultiple(|a + b|, |k|)
    ensures ApplyBlocks(k, a + b) == ApplyBlocks(k, a) + ApplyBlocks(k, b)
    decreases |a|
  {
    MultiplePlus(|a|, |b|, |k|);
    if |a| == 0 {
      assert a + b == b;
    } else {
      var n := |k|;
      MultipleMinusBlock(|a|, n);
      assert (a + b)[..n] == a[..n];
      assert (a + b)[n..] == a[n..] + b;
      ApplyBlocksAppend(k, a[n..], b);
    }
  }

  /** Decrypting with an inverse of the key modulo 26 returns every block of codes in [0, 25]. */
  lemma {:induction false} ApplyBlocksInverse(m: Matrix, k: Matrix, v: seq<int>)
    requires InverseMod26(m, k) && |k| >= 1 && IsMultiple(|v|, |k|) && InRange(v)
    ensures ApplyBlocks(m, ApplyBlocks(k, v)) == v
    decreases |v|
  {
    if |v| > 0 {
      var n := |k|;
      MultipleMinusBlock(|v|, n);
      var c := ApplyBlocks(k, v);
      assert c == MulVecMod(k, v[..n]) + ApplyBlocks(k, v[n..]);
      assert c[..n] == MulVecMod(k, v[..n]);
      assert c[n..] == ApplyBlocks(k, v[n..]);
      InverseUndoes(m, k, v[..n]);
      ApplyBlocksInverse(m, k, v[n..]);
      assert v == v[..n] + v[n..];
    }
  }

  /** `y` is an inverse of `a` modulo `m`. */
  predicate IsInverse(a: int, y: int, m: int)
  {
    m >= 1 && (a * y) % m == 1
  }

  /** The search of `modinv` from `x` upward: the first `y` in [x, m) with `(a * y) % m == 1`. */
  function SearchInverse(a: int, m: int, x: int): (r: Option<int>)
    requires x >= 1
    ensures r.Some? ==> x <= r.value < m && IsInverse(a, r.value, m)
    ensures r.Some? ==> forall y :: x <= y < r.value ==> !IsInverse(a, y, m)
    ensures r.None? <==> forall y :: x <= y < m ==> !IsInverse(a, y, m)
    decreases m - x
  {
    if x >= m then None
    else if (a * x) % m == 1 then assert IsInverse(a, x, m); Some(x)
    else SearchInverse(a, m, x + 1)
  }

  /** `modinv(a, m)`: the least `x` in [1, m) with `(a * x) % m == 1`, or `None`. */
  function ModInv(a: int, m: int): (r: Option<int>)
    ensures r.Some? ==> 1 <= r.value < m && (a * r.value) % m == 1
    ensures r.Some? ==> forall y :: 1 <= y < r.value ==> !IsInverse(a, y, m)
    ensures r.None? <==> forall y :: 1 <= y < m ==> !IsInverse(a, y, m)
  {
    SearchInverse(a, m, 1)
  }

  /** `encrypt_text` on a key grid and a plain text. */
  function Encrypt(key: Matrix, text: string): (r: Result<string, HillError>)
    requires IsSquare(key) && |key| >= 1
    ensures Det(key) == 0 ==> r == Failure(SingularKey)
    ensures Det(key) != 0 && text == "" ==> r == Failure(EmptyText)
    ensures Det(key) != 0 && text != "" ==> r.Success?
    ensures r.Success? ==> |r.value| == |PrepareText(text, |key|)|
    ensures r.Success? ==> forall i :: 0 <= i < |r.value| ==> IsUpperLetter(r.value[i])
  {
    match PrepareKey(key)
    case Failure(e) => Failure(e)
    case Success(k) =>
      if text == "" then Failure(EmptyText)
      else Success(ToLetters(ApplyBlocks(k, PrepareText(text, |k|))))
  }

  /** Cipher letter `i` of block `j` has the code `Σ key[i][t] · v[t] mod 26`,
      where `v` is block `j` of the prepared plain text. */
  lemma EncryptAt(key: Matrix, text: string, j: nat, i: nat)
    requires IsSquare(key) && |key| >= 1 && i < |key|
    requires j * |key| + |key| <= |PrepareText(text, |key|)|
    ensures Encrypt(key, text).Success? ==>
      Code(Encrypt(key, text).value[j * |key| + i]) == Dot(key[i], Block(PrepareText(text, |key|), |key|, j)) % 26
  {
    var n := |key|;
    var v := PrepareText(text, n);
    if Encrypt(key, text).Success? {
      var c := ApplyBlocks(key, v);
      assert Encrypt(key, text).value == ToLetters(c);
      ApplyBlocksAt(key, v, j);
      assert c[j * n + i] == Block(c, n, j)[i];
    }
  }

  /** `decrypt_text` in exact integers. `inverse` stands for the matrix the source
      computes as `key_inv * det * det_inv % 26` in floating point. */
  function Decrypt(key: Matrix, inverse: Matrix, text: string): (r: Result<string, HillError>)
    requires IsSquare(key) && |key| >= 1
    requires |inverse| == |key| && HasWidth(inverse, |key|)
    ensures Det(key) == 0 ==> r == Failure(SingularKey)
    ensures Det(key) != 0 && ModInv(Det(key), 26).None? ==> r == Failure(NotInvertibleMod26)
    ensures Det(key) != 0 && ModInv(Det(key), 26).Some? && text == "" ==> r == Failure(EmptyText)
    ensures Det(key) != 0 && ModInv(Det(key), 26).Some? && text != "" ==> r.Success?
    ensures r.Success? ==> |r.value| == |PrepareText(text, |key|)|
    ensures r.Success? ==> forall i :: 0 <= i < |r.value| ==> IsUpperLetter(r.value[i])
  {
    match PrepareKey(key)
    case Failure(e) => Failure(e)
    case Success(k) =>
      if ModInv(Det(k), 26).None? then Failure(NotInvertibleMod26)
      else if text == "" then Failure(EmptyText)
      else Success(ToLetters(ApplyBlocks(inverse, PrepareText(text, |k|))))
  }

  /** Plain letter `i` of block `j` has the code `Σ inverse[i][t] · c[t] mod 26`,
      where `c` is block `j` of the prepared cipher text. */
  lemma DecryptAt(key: Matrix, inverse: Matrix, text: string, j: nat, i: nat)
    requires IsSquare(key) && |key| >= 1 && i < |key|
    requires |inverse| == |key| && HasWidth(inverse, |key|)
    requires j * |key| + |key| <= |PrepareText(text, |key|)|
    ensures Decrypt(key, inverse, text).Success? ==>
      Code(Decrypt(key, inverse, text).value[j * |key| + i])
        == Dot(inverse[i], Block(PrepareText(text, |key|), |key|, j)) % 26
  {
    var n := |key|;
    var v := PrepareText(text, n);
    if Decrypt(key, inverse, text).Success? {
      var c := ApplyBlocks(inverse, v);
      assert Decrypt(key, inverse, text).value == ToLetters(c);
      ApplyBlocksAt(inverse, v, j);
      assert c[j * n + i] == Block(c, n, j)[i];
    }
  }

  /** For a 2-by-2 key the inverse `decrypt_text` computes as
      `key_inv * det * det_inv % 26` is, in exact arithmetic, the adjugate
      `[[d, -b], [-c, a]]` times the inverse of the
      determinant, reduced modulo 26. */
  function AdjugateInverse2(key: Matrix, detInv: int): (m: Matrix)
    requires |key| == 2 && IsSquare(key)
    ensures |m| == 2 && HasWidth(m, 2)
  {
    [[(key[1][1] * detInv) % 26, (-key[0][1] * detInv) % 26],
     [(-key[1][0] * detInv) % 26, (key[0][0] * detInv) % 26]]
  }

  lemma Dot2(p: seq<int>, q: seq<int>)
    requires |p| == |q| == 2
    ensures Dot(p, q) == p[0] * q[0] + p[1] * q[1]
  {
    assert Dot(p[1..][1..], q[1..][1..]) == 0;
  }

  /** `p*u + q*v` is congruent to the same form with `u`, `v` replaced by congruent values. */
  lemma LinearCongruent(p: int, u: int, u': int, q: int, v: int, v': int)
    requires u % 26 == u' % 26 && v % 26 == v' % 26
    ensures (p * u + q * v) % 26 == (p * u' + q * v') % 26
  {
    MulCongruent(p, u, u');
    MulCongruent(q, v, v');
    AddCongruent(p * u, q * v, p * u', q * v');
  }

  /** The four entries of `adj(K) · K`, each `det` on the diagonal and 0 off it. */
  lemma AdjugateProduct(a: int, b: int, c: int, d: int, x: int)
    ensures a * (d * x) + c * (-b * x) == (a * d - b * c) * x
    ensures b * (d * x) + d * (-b * x) == 0
    ensures a * (-c * x) + c * (a * x) == 0
    ensures b * (-c * x) + d * (a * x) == (a * d - b * c) * x
  {
  }

  /** A 2-by-2 `m` is an inverse of `k` modulo 26 when its four products are right. */
  lemma InverseMod26Of2(m: Matrix, k: Matrix)
    requires |m| == |k| == 2 && HasWidth(m, 2) && IsSquare(k)
    requires Dot(m[0], Column(k, 0)) % 26 == 1 && Dot(m[0], Column(k, 1)) % 26 == 0
    requires Dot(m[1], Column(k, 0)) % 26 == 0 && Dot(m[1], Column(k, 1)) % 26 == 1
    ensures InverseMod26(m, k)
  {
  }

  /** One entry of `adj(K) · K` modulo 26 after the adjugate was reduced. */
  lemma AdjugateEntry(p: int, u: int, q: int, v: int, x: int, det: int, e: int)
    requires p * u + q * v == e * x
    requires (det * x) % 26 == 1
    requires e == det || e == 0
    ensures ((u % 26) * p + (v % 26) * q) % 26 == if e == det then 1 else 0
  {
    LinearCongruent(p, u % 26, u, q, v % 26, v);
    assert (u % 26) * p + (v % 26) * q == p * (u % 26) + q * (v % 26);
    if e == 0 {
      assert e * x == 0;
    }
  }

  /** When the determinant is invertible modulo 26, the adjugate construction is
      an inverse of the key modulo 26. */
  lemma AdjugateInverse2Correct(key: Matrix, x: int)
    requires |key| == 2 && IsSquare(key) && (Det(key) * x) % 26 == 1
    ensures InverseMod26(AdjugateInverse2(key, x), key)
  {
    var m := AdjugateInverse2(key, x);
    var a, b, c, d := key[0][0], key[0][1], key[1][0], key[1][1];
    assert m[0][0] == (d * x) % 26 && m[0][1] == (-b * x) % 26;
    assert m[1][0] == (-c * x) % 26 && m[1][1] == (a * x) % 26;
    Det2(key);
    var det := a * d - b * c;
    AdjugateProduct(a, b, c, d, x);
    assert Column(key, 0) == [a, c];
    assert Column(key, 1) == [b, d];
    Dot2(m[0], [a, c]);
    Dot2(m[0], [b, d]);
    Dot2(m[1], [a, c]);
    Dot2(m[1], [b, d]);
    AdjugateEntry(a, d * x, c, -b * x, x, det, det);
    AdjugateEntry(b, d * x, d, -b * x, x, det, 0);
    AdjugateEntry(a, -c * x, c, a * x, x, det, 0);
    AdjugateEntry(b, -c * x, d, a * x, x, det, det);
    InverseMod26Of2(m, key);
  }

  /** The 2-by-2 round trip with the inverse built from the key alone. */
  lemma RoundTrip2(key: Matrix, text: string)
    requires |key| == 2 && IsSquare(key)
    requires Det(key) != 0 && ModInv(Det(key), 26).Some?
    requires Normalize(text) != ""
    requires forall i :: 0 <= i < |Normalize(text)| ==> IsUpperLetter(Normalize(text)[i])
    ensures Encrypt(key, text).Success?
    ensures Decrypt(key, AdjugateInverse2(key, ModInv(Det(key), 26).value), Encrypt(key, text).value)
         == Success(PadX(Normalize(text), 2))
  {
    AdjugateInverse2Correct(key, ModInv(Det(key), 26).value);
    RoundTrip(key, AdjugateInverse2(key, ModInv(Det(key), 26).value), text);
  }

  /** Preparing a cipher text (upper-case letters, whole blocks) only maps it to codes. */
  lemma PrepareCipherText(c: string, n: nat)
    requires n >= 1 && IsMultiple(|c|, n)
    requires forall i :: 0 <= i < |c| ==> IsUpperLetter(c[i])
    ensures |PrepareText(c, n)| == |c|
    ensures forall i :: 0 <= i < |c| ==> PrepareText(c, n)[i] == Code(c[i])
  {
    NormalizeFixesUpper(c);
  }

  /** Round trip: with an inverse of the key modulo 26, decrypting the cipher
      text returns the prepared (normalised and padded) plain text. */
  lemma RoundTrip(key: Matrix, inverse: Matrix, text: string)
    requires IsSquare(key) && |key| >= 1 && InverseMod26(inverse, key)
    requires Det(key) != 0 && ModInv(Det(key), 26).Some?
    requires Normalize(text) != ""
    requires forall i :: 0 <= i < |Normalize(text)| ==> IsUpperLetter(Normalize(text)[i])
    ensures Encrypt(key, text).Success?
    ensures Decrypt(key, inverse, Encrypt(key, text).value) == Success(PadX(Normalize(text), |key|))
  {
    var n := |key|;
    var v := PrepareText(text, n);
    PrepareTextInRange(text, n);
    var c := ApplyBlocks(key, v);
    var cipher := ToLetters(c);
    assert Encrypt(key, text) == Success(cipher);
    PrepareCipherText(cipher, n);
    assert PrepareText(cipher, n) == c;
    assert Decrypt(key, inverse, cipher) == Success(ToLetters(ApplyBlocks(inverse, c)));
    ApplyBlocksInverse(inverse, key, v);
    PreparedLetters(text, n);
  }

  /** Why the round trip needs a non-blank text: a text of spaces only is not empty,
      so it encrypts, but to the empty cipher text, which decryption refuses. */
  lemma BlankRoundTrip(key: Matrix, inverse: Matrix, text: string)
    requires IsSquare(key) && |key| >= 1 && |inverse| == |key| && HasWidth(inverse, |key|)
    requires Det(key) != 0 && ModInv(Det(key), 26).Some?
    requires text != "" && Normalize(text) == ""
    ensures Encrypt(key, text) == Success("")
    ensures Decrypt(key, inverse, Encrypt(key, text).value) == Failure(EmptyText)
  {
    assert PrepareText(text, |key|) == [];
  }

  /** The letters of a prepared upper-case text are the padded text. */
  lemma PreparedLetters(text: string, n: nat)
    requires n >= 1
    requires forall i :: 0 <= i < |Normalize(text)| ==> IsUpperLetter(Normalize(text)[i])
    ensures InRange(PrepareText(text, n))
    ensures ToLetters(PrepareText(text, n)) == PadX(Normalize(text), n)
  {
    var v := PrepareText(text, n);
    PrepareTextInRange(text, n);
    var t := Normalize(text);
    var plain := PadX(t, n);
    PadXBound(t, n);
    assert |plain| == |v|;
    forall i | 0 <= i < |v|
      ensures ToLetters(v)[i] == plain[i]
    {
      if i < |t| {
        assert plain[i] == plain[..|t|][i];
      }
    }
  }
}

=== FILE: hill_examples.dfy ===
/** Concrete cases of the Hill engine. */
module HillExamples {
  import opened Wrappers
  import opened HillMatrix
  import opened Hill

  /** Sizes 1 and 9 are refused; the end points 2 and 8 are accepted. */
  lemma KeySizeBoundaries()
    ensures CheckKeySize(1) == Failure(InvalidKeySize)
    ensures CheckKeySize(9) == Failure(InvalidKeySize)
    ensures CheckKeySize(2) == Success(2)
    ensures CheckKeySize(8) == Success(8)
  {
  }

  /** `[[1, 0], [0, 0]]` has determinant 0 and is refused. */
  lemma SingularKeyRefused()
    ensures PrepareKey([[1, 0], [0, 0]]) == Failure(SingularKey)
  {
    Det2([[1, 0], [0, 0]]);
  }

  /** 13 and 4 share a factor with 26 and have no inverse; 3 has inverse 9. */
  lemma ModInvExamples()
    ensures ModInv(13, 26) == None
    ensures ModInv(4, 26) == None
    ensures ModInv(3, 26) == Some(9)
  {
    assert IsInverse(3, 9, 26);
  }

  /** Key `[[3, 3], [2, 5]]` turns "HELP" into "HIAT". */
  lemma HelpExample()
    ensures Encrypt([[3, 3], [2, 5]], "HELP") == Success("HIAT")
  {
    var key := [[3, 3], [2, 5]];
    Det2(key);
    var v := PrepareText("HELP", 2);
    assert v == [7, 4, 11, 15];
    Dot2([3, 3], [7, 4]);
    Dot2([2, 5], [7, 4]);
    Dot2([3, 3], [11, 15]);
    Dot2([2, 5], [11, 15]);
    assert MulVecMod(key, [7, 4]) == [7, 8];
    assert MulVecMod(key, [11, 15]) == [0, 19];
    assert v[..2] == [7, 4] && v[2..] == [11, 15];
    assert v[2..][..2] == [11, 15] && v[2..][2..] == [];
    assert ApplyBlocks(key, [11, 15]) == [0, 19] + ApplyBlocks(key, []);
    assert ApplyBlocks(key, v) == [7, 8, 0, 19];
    assert ToLetters([7, 8, 0, 19]) == "HIAT";
  }

  /** A key with determinant 13 still encrypts but cannot decrypt. */
  lemma Determinant13()
    ensures Encrypt([[13, 0], [0, 1]], "AB").Success?
    ensures Decrypt([[13, 0], [0, 1]], [[1, 0], [0, 1]], "AB") == Failure(NotInvertibleMod26)
  {
    Det2([[13, 0], [0, 1]]);
  }
}

=== FILE: hill_matrix.dfy ===
/** Integer matrices and vectors for the Hill cipher: the matrix-vector product
    numpy's `np.dot` computes, an exact determinant, and the algebra showing
    that a key inverse modulo 26 undoes the key. */
module HillMatrix {
  import opened Modular

  /** A matrix as a sequence of rows. */
  type Matrix = seq<seq<int>>

  /** Every row of `m` has `w` entries. */
  predicate HasWidth(m: Matrix, w: nat)
  {
    forall i :: 0 <= i < |m| ==> |m[i]| == w
  }

  predicate IsSquare(m: Matrix)
  {
    HasWidth(m, |m|)
  }

  /** The sum of `a[j] * b[j]` over all positions `j`. */
  function Dot(a: seq<int>, b: seq<int>): int
    requires |a| == |b|
    decreases |a|
  {
    if |a| == 0 then 0 else a[0] * b[0] + Dot(a[1..], b[1..])
  }

  function Column(m: Matrix, j: nat): seq<int>
    requires forall i :: 0 <= i < |m| ==> j < |m[i]|
  {
    seq(|m|, i requires 0 <= i < |m| => m[i][j])
  }

  /** `np.dot(k, v)`: entry `i` is the dot product of row `i` of `k` with `v`. */
  function MulVec(k: Matrix, v: seq<int>): seq<int>
    requires HasWidth(k, |v|)
  {
    seq(|k|, i requires 0 <= i < |k| => Dot(k[i], v))
  }

  /** `np.dot(k, v) % 26`: entry `i` is the residue in [0, 25] of entry `i` of the
      product. numpy's `%` with a positive modulus is never negative, as Dafny's. */
  function MulVecMod(k: Matrix, v: seq<int>): (r: seq<int>)
    requires HasWidth(k, |v|)
    ensures |r| == |k|
    ensures forall i :: 0 <= i < |k| ==> 0 <= r[i] < 26 && (r[i] - MulVec(k, v)[i]) % 26 == 0
  {
    seq(|k|, i requires 0 <= i < |k| => Dot(k[i], v) % 26)
  }

  /** The row vector `m · k` for a `k` whose rows have `w` entries. */
  function VecMul(m: seq<int>, k: Matrix, w: nat): seq<int>
    requires |m| == |k| && HasWidth(k, w)
  {
    seq(w, j requires 0 <= j < w => Dot(m, Column(k, j)))
  }

  /** Row `i` of the `n`-by-`n` identity; the zero vector when `i` is out of range. */
  function Unit(n: nat, i: int): seq<int>
  {
    seq(n, j => if j == i then 1 else 0)
  }

  function Add(x: seq<int>, y: seq<int>): seq<int>
    requires |x| == |y|
  {
    seq(|x|, i requires 0 <= i < |x| => x[i] + y[i])
  }

  function Scale(c: int, x: seq<int>): seq<int>
  {
    seq(|x|, i requires 0 <= i < |x| => c * x[i])
  }

  /** `m · k ≡ I (mod 26)`: `m` is an inverse of the square key `k` modulo 26. */
  predicate InverseMod26(m: Matrix, k: Matrix)
  {
    && IsSquare(k)
    && |m| == |k|
    && HasWidth(m, |k|)
    && forall i, j :: 0 <= i < |k| && 0 <= j < |k| ==>
         Dot(m[i], Column(k, j)) % 26 == if i == j then 1 else 0
  }

  /** `m` with row 0 and column `j` deleted. */
  function Minor(m: Matrix, j: nat): (r: Matrix)
    requires IsSquare(m) && j < |m|
    ensures |r| == |m| - 1 && IsSquare(r)
  {
    seq(|m| - 1, i requires 0 <= i < |m| - 1 => m[i + 1][..j] + m[i + 1][j + 1..])
  }

  /** The exact integer determinant, by cofactor expansion along the first row. */
  function Det(m: Matrix): int
    requires IsSquare(m)
    decreases |m|, 1, 0
  {
    if |m| == 0 then 1 else Cofactors(m, 0)
  }

  /** The cofactor terms of row 0 from column `j` on. */
  function Cofactors(m: Matrix, j: nat): int
    requires IsSquare(m) && 1 <= |m| && j <= |m|
    decreases |m|, 0, |m| - j
  {
    if j == |m| then 0
    else (if j % 2 == 0 then 1 else -1) * m[0][j] * Det(Minor(m, j)) + Cofactors(m, j + 1)
  }

  /** For a 2-by-2 matrix the expansion is the familiar `ad - bc`. */
  lemma Det2(m: Matrix)
    requires |m| == 2 && IsSquare(m)
    ensures Det(m) == m[0][0] * m[1][1] - m[0][1] * m[1][0]
  {
    assert Minor(m, 0) == [[m[1][1]]] by {
      assert m[1][..0] + m[1][1..] == [m[1][1]];
    }
    assert Minor(m, 1) == [[m[1][0]]] by {
      assert m[1][..1] + m[1][2..] == [m[1][0]];
    }
    Det1([m[1][1]]);
    Det1([m[1][0]]);
    assert Cofactors(m, 2) == 0;
    assert Cofactors(m, 1) == -m[0][1] * m[1][0];
    assert Cofactors(m, 0) == m[0][0] * m[1][1] + Cofactors(m, 1);
  }

  /** For a 3-by-3 matrix the expansion is the rule of Sarrus. */
  lemma Det3(m: Matrix)
    requires |m| == 3 && IsSquare(m)
    ensures Det(m) == m[0][0] * (m[1][1] * m[2][2] - m[1][2] * m[2][1])
                    - m[0][1] * (m[1][0] * m[2][2] - m[1][2] * m[2][0])
                    + m[0][2] * (m[1][0] * m[2][1] - m[1][1] * m[2][0])
  {
    var m0, m1, m2 := Minor(m, 0), Minor(m, 1), Minor(m, 2);
    assert m0 == [[m[1][1], m[1][2]], [m[2][1], m[2][2]]] by {
      assert m[1][..0] + m[1][1..] == [m[1][1], m[1][2]];
      assert m[2][..0] + m[2][1..] == [m[2][1], m[2][2]];
    }
    assert m1 == [[m[1][0], m[1][2]], [m[2][0], m[2][2]]] by {
      assert m[1][..1] + m[1][2..] == [m[1][0], m[1][2]];
      assert m[2][..1] + m[2][2..] == [m[2][0], m[2][2]];
    }
    assert m2 == [[m[1][0], m[1][1]], [m[2][0], m[2][1]]] by {
      assert m[1][..2] + m[1][3..] == [m[1][0], m[1][1]];
      assert m[2][..2] + m[2][3..] == [m[2][0], m[2][1]];
    }
    Det2(m0);
    Det2(m1);
    Det2(m2);
    assert Cofactors(m, 3) == 0;
    assert Cofactors(m, 2) == m[0][2] * Det(m2);
    assert Cofactors(m, 1) == -m[0][1] * Det(m1) + Cofactors(m, 2);
    assert Cofactors(m, 0) == m[0][0] * Det(m0) + Cofactors(m, 1);
  }

  lemma Det1(row: seq<int>)
    requires |row| == 1
    ensures Det([row]) == row[0]
  {
    assert Minor([row], 0) == [];
    assert Det([]) == 1;
    assert Cofactors([row], 1) == 0;
    assert Cofactors([row], 0) == row[0] * Det([]) + Cofactors([row], 1);
  }

  lemma {:induction false} DotComm(a: seq<int>, b: seq<int>)
    requires |a| == |b|
    ensures Dot(a, b) == Dot(b, a)
    decreases |a|
  {
    if |a| > 0 {
      DotComm(a[1..], b[1..]);
    }
  }

  lemma {:induction false} DotAdd(x: seq<int>, y: seq<int>, v: seq<int>)
    requires |x| == |y| == |v|
    ensures Dot(Add(x, y), v) == Dot(x, v) + Dot(y, v)
    decreases |x|
  {
    if |x| > 0 {
      assert Add(x, y)[1..] == Add(x[1..], y[1..]);
      DotAdd(x[1..], y[1..], v[1..]);
    }
  }

  lemma {:induction false} DotScale(c: int, x: seq<int>, v: seq<int>)
    requires |x| == |v|
    ensures Dot(Scale(c, x), v) == c * Dot(x, v)
    decreases |x|
  {
    if |x| > 0 {
      assert Scale(c, x)[1..] == Scale(c, x[1..]);
      DotScale(c, x[1..], v[1..]);
      assert c * x[0] * v[0] + c * Dot(x[1..], v[1..]) == c * (x[0] * v[0] + Dot(x[1..], v[1..]));
    }
  }

  /** The dot product with a row of the identity picks one entry. */
  lemma {:induction false} DotUnit(i: int, v: seq<int>)
    ensures Dot(Unit(|v|, i), v) == if 0 <= i < |v| then v[i] else 0
    decreases |v|
  {
    if |v| > 0 {
      assert Unit(|v|, i)[1..] == Unit(|v| - 1, i - 1);
      DotUnit(i - 1, v[1..]);
    }
  }

  /** Reducing the entries of the right operand modulo 26 does not change the
      dot product modulo 26. */
  lemma {:induction false} DotCongruent(a: seq<int>, x: seq<int>, y: seq<int>)
    requires |a| == |x| == |y|
    requires forall i :: 0 <= i < |x| ==> x[i] % 26 == y[i] % 26
    ensures Dot(a, x) % 26 == Dot(a, y) % 26
    decreases |a|
  {
    if |a| > 0 {
      DotCongruent(a[1..], x[1..], y[1..]);
      MulCongruent(a[0], x[0], y[0]);
      AddCongruent(a[0] * x[0], Dot(a[1..], x[1..]), a[0] * y[0], Dot(a[1..], y[1..]));
    }
  }

  /** Associativity of the matrix products: `m · (k · v) == (m · k) · v`. */
  lemma {:induction false} DotMulVec(m: seq<int>, k: Matrix, v: seq<int>)
    requires |m| == |k| && HasWidth(k, |v|)
    ensures Dot(m, MulVec(k, v)) == Dot(VecMul(m, k, |v|), v)
    decreases |m|
  {
    var w := |v|;
    if |m| == 0 {
      assert VecMul(m, k, w) == Unit(w, -1);
      DotUnit(-1, v);
    } else {
      assert MulVec(k, v)[1..] == MulVec(k[1..], v);
      DotMulVec(m[1..], k[1..], v);
      forall j | 0 <= j < w
        ensures VecMul(m, k, w)[j] == Add(Scale(m[0], k[0]), VecMul(m[1..], k[1..], w))[j]
      {
        assert Column(k, j)[1..] == Column(k[1..], j);
      }
      assert VecMul(m, k, w) == Add(Scale(m[0], k[0]), VecMul(m[1..], k[1..], w));
      DotAdd(Scale(m[0], k[0]), VecMul(m[1..], k[1..], w), v);
      DotScale(m[0], k[0], v);
    }
  }

  /** A key inverse modulo 26 undoes the key on any block of values in [0, 25]. */
  lemma InverseUndoes(m: Matrix, k: Matrix, b: seq<int>)
    requires InverseMod26(m, k) && |b| == |k|
    requires forall i :: 0 <= i < |b| ==> 0 <= b[i] < 26
    ensures MulVecMod(m, MulVecMod(k, b)) == b
  {
    forall i | 0 <= i < |k|
      ensures MulVecMod(m, MulVecMod(k, b))[i] == b[i]
    {
      InverseRow(m, k, b, i);
    }
  }

  /** Row `i` of the inverse recovers entry `i` of the block. */
  lemma InverseRow(m: Matrix, k: Matrix, b: seq<int>, i: int)
    requires InverseMod26(m, k) && |b| == |k| && 0 <= i < |k|
    requires forall i :: 0 <= i < |b| ==> 0 <= b[i] < 26
    ensures Dot(m[i], MulVecMod(k, b)) % 26 == b[i]
  {
    ReduceThenMultiply(m[i], k, b);
    InverseRowUnit(m, k, i);
    UnitRow(VecMul(m[i], k, |k|), b, i);
  }

  /** Reducing `k · b` modulo 26 before multiplying by `a` changes nothing modulo 26. */
  lemma ReduceThenMultiply(a: seq<int>, k: Matrix, b: seq<int>)
    requires |a| == |k| && HasWidth(k, |b|)
    ensures Dot(a, MulVecMod(k, b)) % 26 == Dot(VecMul(a, k, |b|), b) % 26
  {
    var e := MulVecMod(k, b);
    assert forall j :: 0 <= j < |k| ==> e[j] % 26 == MulVec(k, b)[j] % 26;
    DotCongruent(a, e, MulVec(k, b));
    DotMulVec(a, k, b);
  }

  /** A row congruent to row `i` of the identity picks entry `i` of a block in [0, 25]. */
  lemma UnitRow(row: seq<int>, b: seq<int>, i: int)
    requires |row| == |b| && 0 <= i < |b| && 0 <= b[i] < 26
    requires forall j :: 0 <= j < |b| ==> row[j] % 26 == Unit(|b|, i)[j] % 26
    ensures Dot(row, b) % 26 == b[i]
  {
    DotComm(row, b);
    DotComm(Unit(|b|, i), b);
    DotCongruent(b, row, Unit(|b|, i));
    DotUnit(i, b);
  }

  /** Row `i` of `m · k` is row `i` of the identity, modulo 26. */
  lemma InverseRowUnit(m: Matrix, k: Matrix, i: int)
    requires InverseMod26(m, k) && 0 <= i < |k|
    ensures |VecMul(m[i], k, |k|)| == |k|
    ensures forall j :: 0 <= j < |k| ==> VecMul(m[i], k, |k|)[j] % 26 == Unit(|k|, i)[j] % 26
  {
  }
}

=== FILE: modular.dfy ===
/** Facts about Euclidean division and remainders with a positive divisor.
    For a positive divisor, Dafny's `%` and `/` agree with Python's `%` and `//`. */
module Modular {

  /** `a` is a whole multiple of the positive block size `n`. */
  predicate IsMultiple(a: int, n: int)
    requires n >= 1
  {
    a % n == 0
  }

  lemma MulAtLeast(n: int, k: int)
    requires n >= 1 && k >= 1
    ensures n * k >= n
  {
  }

  /** Quotient and remainder are unique. */
  lemma DivModUnique(a: int, n: int, q: int, s: int)
    requires n >= 1 && a == n * q + s && 0 <= s < n
    ensures a % n == s && a / n == q
  {
    var q', s' := a / n, a % n;
    assert n * (q - q') == s' - s;
    if q > q' {
      MulAtLeast(n, q - q');
    } else if q < q' {
      MulAtLeast(n, q' - q);
    }
  }

  /** Adding one to `a` moves its remainder one step round the cycle of length `n`. */
  lemma ModSucc(a: int, n: int)
    requires n >= 1
    ensures (a + 1) % n == if a % n == n - 1 then 0 else a % n + 1
  {
    var q, s := a / n, a % n;
    if s == n - 1 {
      DivModUnique(a + 1, n, q + 1, 0);
    } else {
      DivModUnique(a + 1, n, q, s + 1);
    }
  }

  /** Removing one block from a positive multiple of `n` leaves a multiple of `n`. */
  lemma MultipleMinusBlock(a: int, n: int)
    requires n >= 1 && a > 0 && IsMultiple(a, n)
    ensures a >= n && IsMultiple(a - n, n)
  {
    var q := a / n;
    assert a == n * q;
    if q < 1 {
      assert false;
    }
    MulAtLeast(n, q);
    DivModUnique(a - n, n, q - 1, 0);
  }

  /** Appending a block to a multiple of `n` keeps it a multiple of `n`. */
  lemma MultiplePlus(a: int, b: int, n: int)
    requires n >= 1 && IsMultiple(a, n) && IsMultiple(b, n)
    ensures IsMultiple(a + b, n)
  {
    DivModUnique(a + b, n, a / n + b / n, 0);
  }

  /** Between two consecutive multiples of `n` there is no other: any `n`
      consecutive integers starting at `a` contain a multiple of `n`. */
  lemma MultipleInWindow(a: int, n: int) returns (m: int)
    requires n >= 1
    ensures a <= m < a + n && IsMultiple(m, n)
  {
    var q, s := a / n, a % n;
    if s == 0 {
      m := a;
    } else {
      m := a + (n - s);
      DivModUnique(m, n, q + 1, 0);
    }
  }

  /** Congruence mod 26 is preserved by multiplying both sides by the same factor. */
  lemma MulCongruent(p: int, x: int, y: int)
    requires x % 26 == y % 26
    ensures (p * x) % 26 == (p * y) % 26
  {
    var s := x % 26;
    var qx, qy := x / 26, y / 26;
    assert x == 26 * qx + s && y == 26 * qy + s;
    assert p * x == 26 * (p * qx) + p * s;
    assert p * y == 26 * (p * qy) + p * s;
    var t, u := (p * s) / 26, (p * s) % 26;
    assert p * x == 26 * (p * qx + t) + u;
    assert p * y == 26 * (p * qy + t) + u;
    DivModUnique(p * x, 26, p * qx + t, u);
    DivModUnique(p * y, 26, p * qy + t, u);
  }

  /** Congruence mod 26 is preserved by addition. */
  lemma AddCongruent(x: int, y: int, x': int, y': int)
    requires x % 26 == x' % 26 && y % 26 == y' % 26
    ensures (x + y) % 26 == (x' + y') % 26
  {
    var a, b := x % 26, y % 26;
    var t, u := (a + b) / 26, (a + b) % 26;
    assert x + y == 26 * (x / 26 + y / 26 + t) + u;
    assert x' + y' == 26 * (x' / 26 + y' / 26 + t) + u;
    DivModUnique(x + y, 26, x / 26 + y / 26 + t, u);
    DivModUnique(x' + y', 26, x' / 26 + y' / 26 + t, u);
  }
}

=== FILE: playfair.dfy ===
/** The Playfair cipher of `PlayfairCipherGUI` (pfcipher.py): digraph
    preparation, the pair rules and the whole-text loops. */
module Playfair {
  import opened Wrappers
  import opened Text
  import opened PlayfairKey

  /** "Please enter both key and plain text." (or cipher text). */
  datatype PlayfairError = MissingInput

  /** The normalisation of `prepare_text`: spaces removed, upper-cased, J replaced by I. */
  function PrepareLetters(text: string): (r: string)
    ensures |r| == |Normalize(text)|
    ensures forall i :: 0 <= i < |r| ==> r[i] != 'J' && r[i] != ' '
    ensures forall i :: 0 <= i < |r| ==> (r[i] == 'I' <==> Normalize(text)[i] == 'I' || Normalize(text)[i] == 'J')
    ensures forall i :: 0 <= i < |r| && r[i] != 'I' ==> r[i] == Normalize(text)[i]
  {
    var t := Normalize(text);
    seq(|t|, i requires 0 <= i < |t| => if t[i] == 'J' then 'I' else t[i])
  }

  /** One digraph of the splitting loop: two letters copied from the text, or one
      letter followed by the padding 'X' (a doubled letter or the last letter). */
  datatype Digraph = Copied(first: char, second: char) | Padded(first: char)

  /** The two-letter string the source appends for the digraph. */
  function Letters(d: Digraph): string
  {
    match d
    case Copied(a, b) => [a, b]
    case Padded(a) => [a, 'X']
  }

  /** The letters the digraph took from the text: its letters without the padding. */
  function Source(d: Digraph): string
  {
    match d
    case Copied(a, b) => [a, b]
    case Padded(a) => [a]
  }

  /** The digraphs' source letters, concatenated. */
  function Unsplit(ds: seq<Digraph>): string
  {
    if ds == [] then [] else Source(ds[0]) + Unsplit(ds[1..])
  }

  /** The `while i < len(text)` loop of `prepare_text`. Each step consumes one
      letter (padding it) or two (copying them), so the index strictly increases. */
  function Split(t: string): (ds: seq<Digraph>)
    ensures Unsplit(ds) == t
    ensures forall k :: 0 <= k < |ds| ==> ds[k].first in t
    ensures forall k :: 0 <= k < |ds| && ds[k].Copied? ==> ds[k].second in t && ds[k].first != ds[k].second
    ensures |t| <= 2 * |ds| && |ds| <= |t|
    ensures ds != [] ==> ds[0].first == t[0]
    ensures forall k :: 0 <= k < |ds| - 1 && ds[k].Padded? ==> ds[k + 1].first == ds[k].first
    decreases |t|
  {
    if |t| == 0 then []
    else if |t| == 1 || t[0] == t[1] then
      var rest := Split(t[1..]);
      assert ([Padded(t[0])] + rest)[1..] == rest;
      assert t == [t[0]] + t[1..];
      [Padded(t[0])] + rest
    else
      var rest := Split(t[2..]);
      assert ([Copied(t[0], t[1])] + rest)[1..] == rest;
      assert t == [t[0], t[1]] + t[2..];
      [Copied(t[0], t[1])] + rest
  }

  /** The first source letter of a non-empty digraph sequence is its first letter. */
  lemma UnsplitHead(ds: seq<Digraph>)
    ensures ds == [] <==> Unsplit(ds) == []
    ensures ds != [] ==> Unsplit(ds)[0] == ds[0].first
  {
  }

  /** The shape every split has: copied pairs hold distinct letters, and a padded
      letter is followed by a digraph starting with that same letter. */
  predicate SplitShape(ds: seq<Digraph>)
  {
    && (forall k :: 0 <= k < |ds| && ds[k].Copied? ==> ds[k].first != ds[k].second)
    && (forall k :: 0 <= k < |ds| - 1 && ds[k].Padded? ==> ds[k + 1].first == ds[k].first)
  }

  lemma SplitShapeTail(ds: seq<Digraph>)
    requires ds != [] && SplitShape(ds)
    ensures SplitShape(ds[1..])
  {
    var rest := ds[1..];
    forall k | 0 <= k < |rest| && rest[k].Copied?
      ensures rest[k].first != rest[k].second
    {
      assert rest[k] == ds[k + 1];
    }
    forall k | 0 <= k < |rest| - 1 && rest[k].Padded?
      ensures rest[k + 1].first == rest[k].first
    {
      assert rest[k] == ds[k + 1] && rest[k + 1] == ds[k + 2];
    }
  }

  /** A lone last letter or the first of a doubled pair becomes one padded digraph. */
  lemma SplitPadded(t: string)
    requires |t| >= 1 && (|t| == 1 || t[0] == t[1])
    ensures Split(t) == [Padded(t[0])] + Split(t[1..])
  {
  }

  /** The contract of `Split` determines it: any digraph sequence that rebuilds
      `t`, copies only distinct letters, and after a padded letter continues with
      that same letter is the split of `t`. */
  lemma {:induction false} SplitUnique(t: string, ds: seq<Digraph>)
    requires Unsplit(ds) == t
    requires forall k :: 0 <= k < |ds| && ds[k].Copied? ==> ds[k].first != ds[k].second
    requires forall k :: 0 <= k < |ds| - 1 && ds[k].Padded? ==> ds[k + 1].first == ds[k].first
    ensures ds == Split(t)
    decreases |ds|
  {
    if ds != [] {
      var rest := ds[1..];
      assert Unsplit(ds) == Source(ds[0]) + Unsplit(rest);
      assert SplitShape(ds);
      SplitShapeTail(ds);
      UnsplitHead(rest);
      match ds[0]
      case Copied(a, b) =>
        assert t[0] == a && t[1] == b && t[2..] == Unsplit(rest);
        SplitUnique(t[2..], rest);
        SplitCopied(t);
      case Padded(a) =>
        assert t[0] == a && t[1..] == Unsplit(rest);
        if |t| >= 2 {
          assert rest != [] && rest[0] == ds[1];
          assert t[1] == a;
        }
        SplitUnique(t[1..], rest);
        SplitPadded(t);
    }
  }

  /** `prepare_text`: the digraphs as two-letter strings. */
  function PrepareText(text: string): (r: seq<string>)
    ensures |r| == |Split(PrepareLetters(text))|
    ensures |PrepareLetters(text)| <= 2 * |r| && |r| <= |PrepareLetters(text)|
    ensures forall k :: 0 <= k < |r| ==> |r[k]| == 2 && 'J' !in r[k] && ' ' !in r[k]
    ensures forall k :: 0 <= k < |r| ==> r[k][0] == r[k][1] ==> r[k] == "XX"
    ensures r == LettersOf(Split(PrepareLetters(text)))
  {
    var t := PrepareLetters(text);
    LettersOfSplit(t);
    LettersOf(Split(t))
  }

  /** The two-letter strings of a digraph sequence. */
  function LettersOf(ds: seq<Digraph>): (r: seq<string>)
    ensures |r| == |ds|
    ensures forall k :: 0 <= k < |r| ==> r[k] == Letters(ds[k])
  {
    seq(|ds|, k requires 0 <= k < |ds| => Letters(ds[k]))
  }

  lemma LettersOfSplit(t: string)
    requires forall i :: 0 <= i < |t| ==> t[i] != 'J' && t[i] != ' '
    ensures forall k :: 0 <= k < |Split(t)| ==>
      var p := LettersOf(Split(t))[k];
      |p| == 2 && 'J' !in p && ' ' !in p && (p[0] == p[1] ==> p == "XX")
  {
    var ds := Split(t);
    forall k | 0 <= k < |ds|
      ensures var p := Letters(ds[k]);
        |p| == 2 && 'J' !in p && ' ' !in p && (p[0] == p[1] ==> p == "XX")
    {
      assert ds[k].first in t;
      if ds[k].Copied? {
        assert ds[k].second in t;
      }
    }
  }

  /** Both letters of a two-letter string are in the square. */
  predicate PairInSquare(sq: Square, pair: string)
    requires IsSquare5(sq)
  {
    |pair| == 2 && InSquare(sq, pair[0]) && InSquare(sq, pair[1])
  }

  predicate InGrid(p: Position)
  {
    0 <= p.row < 5 && 0 <= p.col < 5
  }

  function At(sq: Square, p: Position): char
    requires IsSquare5(sq) && InGrid(p)
  {
    sq[p.row][p.col]
  }

  /** The cells `encrypt_pair` reads, given the cells of the two letters:
      same row, one to the right; same column, one down; otherwise the columns swap. */
  function EncryptCells(a: Position, b: Position): (r: (Position, Position))
    requires InGrid(a) && InGrid(b)
    ensures InGrid(r.0) && InGrid(r.1)
  {
    if a.row == b.row then (Position(a.row, (a.col + 1) % 5), Position(b.row, (b.col + 1) % 5))
    else if a.col == b.col then (Position((a.row + 1) % 5, a.col), Position((b.row + 1) % 5, b.col))
    else (Position(a.row, b.col), Position(b.row, a.col))
  }

  /** The cells `decrypt_pair` reads: one to the left, one up, or the same column swap.
      Python's `(x - 1) % 5` and Dafny's agree: both give 4 for -1. */
  function DecryptCells(a: Position, b: Position): (r: (Position, Position))
    requires InGrid(a) && InGrid(b)
    ensures InGrid(r.0) && InGrid(r.1)
  {
    if a.row == b.row then (Position(a.row, (a.col - 1) % 5), Position(b.row, (b.col - 1) % 5))
    else if a.col == b.col then (Position((a.row - 1) % 5, a.col), Position((b.row - 1) % 5, b.col))
    else (Position(a.row, b.col), Position(b.row, a.col))
  }

  /** Shifting by one along a row or column of five, with wrap-around. */
  lemma Shift(x: int)
    requires 0 <= x < 5
    ensures (x + 1) % 5 == if x == 4 then 0 else x + 1
    ensures (x - 1) % 5 == if x == 0 then 4 else x - 1
  {
  }

  /** The shifts are undone by the opposite shift modulo 5 and the column swap is
      its own inverse, so the decryption cells undo the encryption cells and back. */
  lemma CellsRoundTrip(a: Position, b: Position)
    requires InGrid(a) && InGrid(b)
    ensures DecryptCells(EncryptCells(a, b).0, EncryptCells(a, b).1) == (a, b)
    ensures EncryptCells(DecryptCells(a, b).0, DecryptCells(a, b).1) == (a, b)
  {
    Shift(a.row);
    Shift(b.row);
    Shift(a.col);
    Shift(b.col);
  }

  /** A pair of equal cells never encrypts to the cell it started from. */
  lemma EncryptCellsMoves(a: Position)
    requires InGrid(a)
    ensures EncryptCells(a, a).0 != a
  {
    Shift(a.col);
  }

  /** Two different cells encrypt to two different cells, and equal cells to equal cells. */
  lemma EncryptCellsDistinct(a: Position, b: Position)
    requires InGrid(a) && InGrid(b)
    ensures EncryptCells(a, b).0 == EncryptCells(a, b).1 <==> a == b
  {
    Shift(a.row);
    Shift(b.row);
    Shift(a.col);
    Shift(b.col);
  }

  /** `encrypt_pair`. */
  function EncryptPair(sq: Square, pair: string): (r: string)
    requires IsSquare5(sq) && PairInSquare(sq, pair)
    ensures PairInSquare(sq, r)
  {
    var cells := EncryptCells(FindPosition(sq, pair[0]), FindPosition(sq, pair[1]));
    [At(sq, cells.0), At(sq, cells.1)]
  }

  /** `decrypt_pair`. */
  function DecryptPair(sq: Square, pair: string): (r: string)
    requires IsSquare5(sq) && PairInSquare(sq, pair)
    ensures PairInSquare(sq, r)
  {
    var cells := DecryptCells(FindPosition(sq, pair[0]), FindPosition(sq, pair[1]));
    [At(sq, cells.0), At(sq, cells.1)]
  }

  /** In a square without repeats, decryption undoes encryption of a pair. */
  lemma PairRoundTrip(sq: Square, pair: string)
    requires IsSquare5(sq) && Distinct(sq) && PairInSquare(sq, pair)
    ensures DecryptPair(sq, EncryptPair(sq, pair)) == pair
  {
    var a, b := FindPosition(sq, pair[0]), FindPosition(sq, pair[1]);
    var cells := EncryptCells(a, b);
    FindPositionOf(sq, cells.0.row, cells.0.col);
    FindPositionOf(sq, cells.1.row, cells.1.col);
    CellsRoundTrip(a, b);
    assert pair == [pair[0], pair[1]];
  }

  /** In a square without repeats, encryption undoes decryption of a pair. */
  lemma PairRoundTripReverse(sq: Square, pair: string)
    requires IsSquare5(sq) && Distinct(sq) && PairInSquare(sq, pair)
    ensures EncryptPair(sq, DecryptPair(sq, pair)) == pair
  {
    var a, b := FindPosition(sq, pair[0]), FindPosition(sq, pair[1]);
    var cells := DecryptCells(a, b);
    FindPositionOf(sq, cells.0.row, cells.0.col);
    FindPositionOf(sq, cells.1.row, cells.1.col);
    CellsRoundTrip(a, b);
    assert pair == [pair[0], pair[1]];
  }

  /** In a square without repeats, a pair encrypts to two equal letters exactly
      when its own two letters are equal. */
  lemma EncryptPairDistinct(sq: Square, pair: string)
    requires IsSquare5(sq) && Distinct(sq) && PairInSquare(sq, pair)
    ensures EncryptPair(sq, pair)[0] == EncryptPair(sq, pair)[1] <==> pair[0] == pair[1]
  {
    var a, b := FindPosition(sq, pair[0]), FindPosition(sq, pair[1]);
    EncryptCellsDistinct(a, b);
  }

  /** Every pair of the prepared text has both letters in the square. */
  predicate AllInSquare(sq: Square, ps: seq<string>)
    requires IsSquare5(sq)
  {
    forall k :: 0 <= k < |ps| ==> PairInSquare(sq, ps[k])
  }

  /** The pairs after the first are in the square too. */
  lemma AllInSquareTail(sq: Square, ps: seq<string>)
    requires IsSquare5(sq) && AllInSquare(sq, ps) && ps != []
    ensures AllInSquare(sq, ps[1..])
  {
    forall t | 0 <= t < |ps[1..]|
      ensures PairInSquare(sq, ps[1..][t])
    {
      assert ps[1..][t] == ps[t + 1];
    }
  }

  /** The loop `for pair in prepared_text: encrypted_text += encrypt_pair(matrix, pair)`. */
  function EncryptPairs(sq: Square, ps: seq<string>): (r: string)
    requires IsSquare5(sq) && AllInSquare(sq, ps)
    ensures |r| == 2 * |ps|
    ensures forall i :: 0 <= i < |r| ==> InSquare(sq, r[i])
  {
    if ps == [] then "" else AllInSquareTail(sq, ps); EncryptPair(sq, ps[0]) + EncryptPairs(sq, ps[1..])
  }

  /** The loop `for pair in prepared_text: decrypted_text += decrypt_pair(matrix, pair)`. */
  function DecryptPairs(sq: Square, ps: seq<string>): (r: string)
    requires IsSquare5(sq) && AllInSquare(sq, ps)
    ensures |r| == 2 * |ps|
    ensures forall i :: 0 <= i < |r| ==> InSquare(sq, r[i])
  {
    if ps == [] then "" else AllInSquareTail(sq, ps); DecryptPair(sq, ps[0]) + DecryptPairs(sq, ps[1..])
  }

  /** Two letters at `2k` of a two-letter head followed by `rest`. */
  lemma PairSlice(head: string, rest: string, k: nat)
    requires |head| == 2 && 2 * k + 2 <= 2 + |rest|
    ensures k == 0 ==> (head + rest)[2 * k .. 2 * k + 2] == head
    ensures k > 0 ==> (head + rest)[2 * k .. 2 * k + 2] == rest[2 * (k - 1) .. 2 * (k - 1) + 2]
  {
  }

  /** Letters `2k` and `2k + 1` of the loop's output are `encrypt_pair` of digraph `k`. */
  lemma {:induction false} EncryptPairsAt(sq: Square, ps: seq<string>, k: nat)
    requires IsSquare5(sq) && AllInSquare(sq, ps) && k < |ps|
    ensures EncryptPairs(sq, ps)[2 * k .. 2 * k + 2] == EncryptPair(sq, ps[k])
    decreases k
  {
    var head, rest := EncryptPair(sq, ps[0]), EncryptPairs(sq, ps[1..]);
    AllInSquareTail(sq, ps);
    assert EncryptPairs(sq, ps) == head + rest;
    PairSlice(head, rest, k);
    if k > 0 {
      EncryptPairsAt(sq, ps[1..], k - 1);
      assert ps[1..][k - 1] == ps[k];
    }
  }

  /** Letters `2k` and `2k + 1` of the loop's output are `decrypt_pair` of digraph `k`. */
  lemma {:induction false} DecryptPairsAt(sq: Square, ps: seq<string>, k: nat)
    requires IsSquare5(sq) && AllInSquare(sq, ps) && k < |ps|
    ensures DecryptPairs(sq, ps)[2 * k .. 2 * k + 2] == DecryptPair(sq, ps[k])
    decreases k
  {
    var head, rest := DecryptPair(sq, ps[0]), DecryptPairs(sq, ps[1..]);
    AllInSquareTail(sq, ps);
    assert DecryptPairs(sq, ps) == head + rest;
    PairSlice(head, rest, k);
    if k > 0 {
      DecryptPairsAt(sq, ps[1..], k - 1);
      assert ps[1..][k - 1] == ps[k];
    }
  }

  /** `encrypt_text`: refuses an empty key or text, otherwise encrypts every digraph. */
  function EncryptText(key: string, plain: string): (r: Result<string, PlayfairError>)
    requires key != "" && plain != "" ==> AllInSquare(GenerateMatrix(key), PrepareText(plain))
    ensures r.Failure? <==> key == "" || plain == ""
    ensures r.Success? ==> |r.value| == 2 * |PrepareText(plain)|
    ensures r.Success? ==> forall i :: 0 <= i < |r.value| ==> InSquare(GenerateMatrix(key), r.value[i])
  {
    if key == "" || plain == "" then Failure(MissingInput)
    else Success(EncryptPairs(GenerateMatrix(key), PrepareText(plain)))
  }

  /** `decrypt_text`: refuses an empty key or text, otherwise decrypts every digraph
      of the re-prepared cipher text. */
  function DecryptText(key: string, cipher: string): (r: Result<string, PlayfairError>)
    requires key != "" && cipher != "" ==> AllInSquare(GenerateMatrix(key), PrepareText(cipher))
    ensures r.Failure? <==> key == "" || cipher == ""
    ensures r.Success? ==> |r.value| == 2 * |PrepareText(cipher)|
    ensures r.Success? ==> forall i :: 0 <= i < |r.value| ==> InSquare(GenerateMatrix(key), r.value[i])
  {
    if key == "" || cipher == "" then Failure(MissingInput)
    else Success(DecryptPairs(GenerateMatrix(key), PrepareText(cipher)))
  }

  /** The cipher text is `encrypt_pair` of each prepared digraph, in order:
      letters `2k` and `2k + 1` encrypt digraph `k`. */
  lemma EncryptTextAt(key: string, plain: string, k: nat)
    requires key != "" && plain != "" ==> AllInSquare(GenerateMatrix(key), PrepareText(plain))
    requires k < |PrepareText(plain)|
    ensures EncryptText(key, plain).Success? ==>
      EncryptText(key, plain).value[2 * k .. 2 * k + 2] == EncryptPair(GenerateMatrix(key), PrepareText(plain)[k])
  {
    if EncryptText(key, plain).Success? {
      EncryptPairsAt(GenerateMatrix(key), PrepareText(plain), k);
    }
  }

  /** The plain text is `decrypt_pair` of each re-prepared cipher digraph, in order:
      letters `2k` and `2k + 1` decrypt digraph `k`. */
  lemma DecryptTextAt(key: string, cipher: string, k: nat)
    requires key != "" && cipher != "" ==> AllInSquare(GenerateMatrix(key), PrepareText(cipher))
    requires k < |PrepareText(cipher)|
    ensures DecryptText(key, cipher).Success? ==>
      DecryptText(key, cipher).value[2 * k .. 2 * k + 2] == DecryptPair(GenerateMatrix(key), PrepareText(cipher)[k])
  {
    if DecryptText(key, cipher).Success? {
      DecryptPairsAt(GenerateMatrix(key), PrepareText(cipher), k);
    }
  }

  /** The strings of `ps`, concatenated. */
  function Flatten(ps: seq<string>): string
  {
    if ps == [] then "" else ps[0] + Flatten(ps[1..])
  }

  /** The pairs `encrypt_pair` produces, one per digraph. */
  function EncryptEach(sq: Square, ps: seq<string>): (r: seq<string>)
    requires IsSquare5(sq) && AllInSquare(sq, ps)
    ensures |r| == |ps| && AllInSquare(sq, r)
  {
    seq(|ps|, k requires 0 <= k < |ps| => EncryptPair(sq, ps[k]))
  }

  lemma {:induction false} EncryptPairsFlatten(sq: Square, ps: seq<string>)
    requires IsSquare5(sq) && AllInSquare(sq, ps)
    ensures EncryptPairs(sq, ps) == Flatten(EncryptEach(sq, ps))
    decreases |ps|
  {
    if ps != [] {
      var es := EncryptEach(sq, ps);
      EncryptPairsFlatten(sq, ps[1..]);
      EncryptEachTail(sq, ps);
      assert Flatten(es) == es[0] + Flatten(es[1..]);
      assert EncryptPairs(sq, ps) == EncryptPair(sq, ps[0]) + EncryptPairs(sq, ps[1..]);
    }
  }

  /** Encrypting the pairs after the first is the tail of encrypting them all. */
  lemma EncryptEachTail(sq: Square, ps: seq<string>)
    requires IsSquare5(sq) && AllInSquare(sq, ps) && ps != []
    ensures EncryptEach(sq, ps)[1..] == EncryptEach(sq, ps[1..])
  {
    var es, tail := EncryptEach(sq, ps), EncryptEach(sq, ps[1..]);
    forall k | 0 <= k < |tail|
      ensures es[1..][k] == tail[k]
    {
      assert ps[1..][k] == ps[k + 1];
    }
  }

  /** The first encrypted pair decrypts to the first pair. */
  lemma EncryptEachHead(sq: Square, ps: seq<string>)
    requires IsSquare5(sq) && Distinct(sq) && AllInSquare(sq, ps) && ps != []
    ensures DecryptPair(sq, EncryptEach(sq, ps)[0]) == ps[0]
  {
    PairRoundTrip(sq, ps[0]);
  }

  /** Decrypting each encrypted pair gives back the pairs, concatenated. */
  lemma {:induction false} DecryptEach(sq: Square, ps: seq<string>)
    requires IsSquare5(sq) && Distinct(sq) && AllInSquare(sq, ps)
    ensures DecryptPairs(sq, EncryptEach(sq, ps)) == Flatten(ps)
    decreases |ps|
  {
    if ps != [] {
      EncryptEachHead(sq, ps);
      EncryptEachTail(sq, ps);
      DecryptEach(sq, ps[1..]);
    }
  }

  /** Two distinct letters at the front become one copied digraph. */
  lemma SplitCopied(t: string)
    requires |t| >= 2 && t[0] != t[1]
    ensures Split(t) == [Copied(t[0], t[1])] + Split(t[2..])
  {
  }

  lemma LettersOfCons(d: Digraph, ds: seq<Digraph>)
    ensures LettersOf([d] + ds) == [Letters(d)] + LettersOf(ds)
  {
  }

  /** Re-splitting a concatenation of two-letter strings whose letters differ
      yields exactly those strings, copied, and then the digraphs of what follows. */
  lemma {:induction false} SplitFlatten(ps: seq<string>, tail: string)
    requires forall k :: 0 <= k < |ps| ==> |ps[k]| == 2 && ps[k][0] != ps[k][1]
    ensures LettersOf(Split(Flatten(ps) + tail)) == ps + LettersOf(Split(tail))
    decreases |ps|
  {
    if ps != [] {
      DistinctPairsTail(ps);
      SplitFlatten(ps[1..], tail);
      SplitFront(ps, tail);
      ConsAppend(ps, LettersOf(Split(tail)));
    } else {
      assert Flatten(ps) + tail == tail;
    }
  }

  lemma DistinctPairsTail(ps: seq<string>)
    requires ps != [] && forall k :: 0 <= k < |ps| ==> |ps[k]| == 2 && ps[k][0] != ps[k][1]
    ensures forall k :: 0 <= k < |ps[1..]| ==> |ps[1..][k]| == 2 && ps[1..][k][0] != ps[1..][k][1]
  {
    forall k | 0 <= k < |ps[1..]|
      ensures |ps[1..][k]| == 2 && ps[1..][k][0] != ps[1..][k][1]
    {
      assert ps[1..][k] == ps[k + 1];
    }
  }

  lemma ConsAppend(ps: seq<string>, l: seq<string>)
    requires ps != []
    ensures [ps[0]] + (ps[1..] + l) == ps + l
  {
    assert [ps[0]] + ps[1..] == ps;
  }

  /** The first pair of a concatenation is split off as a copied digraph. */
  lemma SplitFront(ps: seq<string>, tail: string)
    requires ps != [] && |ps[0]| == 2 && ps[0][0] != ps[0][1]
    ensures LettersOf(Split(Flatten(ps) + tail)) == [ps[0]] + LettersOf(Split(Flatten(ps[1..]) + tail))
  {
    var t := Flatten(ps) + tail;
    var rest := Flatten(ps[1..]) + tail;
    FlattenFront(ps, tail);
    SplitCopied(t);
    LettersOfCons(Copied(t[0], t[1]), Split(rest));
    assert Letters(Copied(t[0], t[1])) == ps[0];
  }

  lemma FlattenFront(ps: seq<string>, tail: string)
    requires ps != [] && |ps[0]| == 2
    ensures |Flatten(ps) + tail| >= 2
    ensures (Flatten(ps) + tail)[0] == ps[0][0] && (Flatten(ps) + tail)[1] == ps[0][1]
    ensures (Flatten(ps) + tail)[2..] == Flatten(ps[1..]) + tail
  {
    var rest := Flatten(ps[1..]) + tail;
    assert Flatten(ps) + tail == ps[0] + rest;
  }

  /** Re-splitting a concatenation of two-letter strings whose letters differ
      yields exactly those strings. */
  lemma SplitFlattenAll(ps: seq<string>)
    requires forall k :: 0 <= k < |ps| ==> |ps[k]| == 2 && ps[k][0] != ps[k][1]
    ensures LettersOf(Split(Flatten(ps))) == ps
  {
    SplitFlatten(ps, "");
    assert Flatten(ps) + "" == Flatten(ps);
    assert ps + LettersOf(Split("")) == ps;
  }

  /** Letters of the alphabet are upper-case and not J. */
  lemma AlphabetLetters(c: char)
    requires c in Alphabet
    ensures IsUpperLetter(c) && c != 'J'
  {
  }

  /** A text of alphabet letters is left as it is by the preparation. */
  lemma PrepareLettersFixes(t: string)
    requires forall i :: 0 <= i < |t| ==> t[i] in Alphabet
    ensures PrepareLetters(t) == t
  {
    forall i | 0 <= i < |t|
      ensures IsUpperLetter(t[i]) && t[i] != 'J'
    {
      AlphabetLetters(t[i]);
    }
    NormalizeFixesUpper(t);
  }

  /** A letter in a square that is a permutation of the alphabet is an alphabet letter. */
  lemma InSquareInAlphabet(sq: Square, c: char)
    requires IsPermutationOfAlphabet(sq) && InSquare(sq, c)
    ensures c in Alphabet
  {
  }

  /** With a key of alphabet letters, a plain text of alphabet letters (after J
      becomes I) and no "XX" digraph, every digraph is in the square and the
      encrypted digraphs have distinct letters. */
  lemma PlainPairs(key: string, plain: string)
    requires forall c :: c in Normalize(key) ==> c in Alphabet
    requires forall c :: c in PrepareLetters(plain) ==> c in Alphabet
    requires forall k :: 0 <= k < |PrepareText(plain)| ==> PrepareText(plain)[k] != "XX"
    ensures AllInSquare(GenerateMatrix(key), PrepareText(plain))
    ensures forall k :: 0 <= k < |PrepareText(plain)| ==> PrepareText(plain)[k][0] != PrepareText(plain)[k][1]
    ensures forall k :: 0 <= k < |PrepareText(plain)| ==>
      EncryptEach(GenerateMatrix(key), PrepareText(plain))[k][0] != EncryptEach(GenerateMatrix(key), PrepareText(plain))[k][1]
  {
    var sq := GenerateMatrix(key);
    SquareIsPermutation(key);
    var t := PrepareLetters(plain);
    var ds := Split(t);
    var ps := PrepareText(plain);
    assert ps == LettersOf(ds);
    forall k | 0 <= k < |ps|
      ensures PairInSquare(sq, ps[k])
    {
      assert ds[k].first in t;
      if ds[k].Copied? {
        assert ds[k].second in t;
      }
      assert ps[k][0] in Alphabet && ps[k][1] in Alphabet;
    }
    forall k | 0 <= k < |ps|
      ensures EncryptPair(sq, ps[k])[0] != EncryptPair(sq, ps[k])[1]
    {
      EncryptPairDistinct(sq, ps[k]);
    }
  }

  /** Whole-text round trip: decrypting the cipher text gives the prepared
      digraphs of the plain text, concatenated. */
  lemma TextRoundTrip(key: string, plain: string)
    requires key != "" && PrepareLetters(plain) != ""
    requires forall c :: c in Normalize(key) ==> c in Alphabet
    requires forall c :: c in PrepareLetters(plain) ==> c in Alphabet
    requires forall k :: 0 <= k < |PrepareText(plain)| ==> PrepareText(plain)[k] != "XX"
    ensures AllInSquare(GenerateMatrix(key), PrepareText(plain))
    ensures EncryptText(key, plain).Success?
    ensures AllInSquare(GenerateMatrix(key), PrepareText(EncryptText(key, plain).value))
    ensures DecryptText(key, EncryptText(key, plain).value) == Success(Flatten(PrepareText(plain)))
  {
    var sq := GenerateMatrix(key);
    SquareIsPermutation(key);
    PlainPairs(key, plain);
    assert plain != "";
    var ps := PrepareText(plain);
    var es := EncryptEach(sq, ps);
    var cipher := EncryptPairs(sq, ps);
    EncryptPairsFlatten(sq, ps);
    forall i | 0 <= i < |cipher|
      ensures cipher[i] in Alphabet
    {
      InSquareInAlphabet(sq, cipher[i]);
    }
    PrepareLettersFixes(cipher);
    SplitFlattenAll(es);
    assert PrepareText(cipher) == es;
    DecryptEach(sq, ps);
  }

  /** Why the round trip needs letters: a non-empty text of spaces only prepares
      to no digraph, so it encrypts to the empty cipher text, which decryption refuses. */
  lemma BlankRoundTrip(key: string, plain: string)
    requires key != "" && plain != "" && Normalize(plain) == ""
    ensures PrepareText(plain) == [] && AllInSquare(GenerateMatrix(key), PrepareText(plain))
    ensures EncryptText(key, plain) == Success("")
    ensures DecryptText(key, EncryptText(key, plain).value) == Failure(MissingInput)
  {
    assert PrepareLetters(plain) == "";
    assert Split("") == [];
  }

  /** Two equal alphabet letters other than X. */
  predicate DoubledLetter(t: string)
  {
    |t| == 2 && t[0] == t[1] && t[0] != 'X' && t[0] in Alphabet
  }

  /** The padding digraph "XX" does not survive the round trip: a lone X is
      padded to "XX", which encrypts to a doubled letter other than X, and the
      decryption's own preparation splits that into two padded digraphs, so
      four letters come back instead of two. The "XX" exclusion of
      `TextRoundTrip` cannot be dropped. */
  lemma LoneXRoundTrip(key: string, plain: string)
    requires key != "" && plain == "X"
    requires forall c :: c in Normalize(key) ==> c in Alphabet
    ensures PrepareText(plain) == ["XX"] && AllInSquare(GenerateMatrix(key), PrepareText(plain))
    ensures EncryptText(key, plain).Success? && DoubledLetter(EncryptText(key, plain).value)
    ensures AllInSquare(GenerateMatrix(key), PrepareText(EncryptText(key, plain).value))
    ensures DecryptText(key, EncryptText(key, plain).value).Success?
    ensures |DecryptText(key, EncryptText(key, plain).value).value| == 4
    ensures DecryptText(key, EncryptText(key, plain).value) != Success(Flatten(PrepareText(plain)))
  {
    LoneXCipher(key, plain);
    var cipher := EncryptText(key, plain).value;
    DoubledDecrypt(key, cipher);
    var ps := PrepareText(plain);
    assert Flatten(ps) == ps[0] + Flatten(ps[1..]);
    assert ps[1..] == [];
  }

  /** A lone X encrypts to a doubled letter other than X. */
  lemma LoneXCipher(key: string, plain: string)
    requires key != "" && plain == "X"
    requires forall c :: c in Normalize(key) ==> c in Alphabet
    ensures PrepareText(plain) == ["XX"] && AllInSquare(GenerateMatrix(key), PrepareText(plain))
    ensures EncryptText(key, plain).Success? && DoubledLetter(EncryptText(key, plain).value)
  {
    SquareIsPermutation(key);
    LoneXPrepared(plain);
    PaddingPairs(GenerateMatrix(key), PrepareText(plain));
  }

  /** In a permutation square the single digraph "XX" encrypts to a doubled letter other than X. */
  lemma PaddingPairs(sq: Square, ps: seq<string>)
    requires IsPermutationOfAlphabet(sq) && ps == ["XX"]
    ensures AllInSquare(sq, ps) && DoubledLetter(EncryptPairs(sq, ps))
  {
    var pair := ps[0];
    EncryptDoubledX(sq, pair);
    var cipher := EncryptPair(sq, pair);
    assert ps[1..] == [];
    assert EncryptPairs(sq, ps) == cipher + EncryptPairs(sq, ps[1..]);
    assert EncryptPairs(sq, ps) == cipher;
  }

  /** A doubled letter other than X decrypts to four letters. */
  lemma DoubledDecrypt(key: string, cipher: string)
    requires key != "" && DoubledLetter(cipher)
    requires forall c :: c in Normalize(key) ==> c in Alphabet
    ensures AllInSquare(GenerateMatrix(key), PrepareText(cipher))
    ensures DecryptText(key, cipher).Success? && |DecryptText(key, cipher).value| == 4
  {
    SquareIsPermutation(key);
    DoubledPairs(GenerateMatrix(key), cipher);
  }

  lemma DoubledPairs(sq: Square, t: string)
    requires IsPermutationOfAlphabet(sq) && DoubledLetter(t)
    ensures AllInSquare(sq, PrepareText(t)) && |PrepareText(t)| == 2
  {
    DoubledPrepared(t);
    var ps := PrepareText(t);
    assert 'X' in Alphabet;
    assert InSquare(sq, t[0]) && InSquare(sq, 'X');
    assert PairInSquare(sq, ps[0]) && PairInSquare(sq, ps[1]);
  }

  /** A lone X is padded to the single digraph "XX". */
  lemma LoneXPrepared(plain: string)
    requires plain == "X"
    ensures PrepareText(plain) == ["XX"]
  {
    assert 'X' in Alphabet;
    PrepareLettersFixes(plain);
    assert Split(plain) == [Padded('X')];
  }

  /** In a permutation square "XX" encrypts to a doubled alphabet letter other than X. */
  lemma EncryptDoubledX(sq: Square, pair: string)
    requires IsPermutationOfAlphabet(sq) && pair == "XX"
    ensures PairInSquare(sq, pair)
    ensures EncryptPair(sq, pair)[0] == EncryptPair(sq, pair)[1] != 'X'
    ensures EncryptPair(sq, pair)[0] in Alphabet
  {
    assert 'X' in Alphabet;
    assert PairInSquare(sq, pair);
    EncryptPairDistinct(sq, pair);
    EncryptCellsMoves(FindPosition(sq, 'X'));
    InSquareInAlphabet(sq, EncryptPair(sq, pair)[0]);
  }

  /** A doubled letter other than X is prepared as two padded digraphs. */
  lemma DoubledPrepared(t: string)
    requires |t| == 2 && t[0] == t[1] != 'X' && t[0] in Alphabet
    ensures PrepareText(t) == [[t[0], 'X'], [t[0], 'X']]
  {
    PrepareLettersFixes(t);
    assert Split(t[1..]) == [Padded(t[0])];
    assert Split(t) == [Padded(t[0]), Padded(t[0])];
  }
}

=== FILE: playfair_examples.dfy ===
/** The worked Playfair example: key MONARCHY, plain text INSTRUMENTS.

    Dafny unfolds a recursive function without bound when every argument is a
    literal, so a call such as `DeleteAll("ABC…", "MONARCHY")` written out
    directly exhausts the solver. Each step is therefore its own lemma over
    parameters fixed by `requires`, with the next intermediate value bound by
    `var b :| b == "…"` rather than written as a literal argument. The eight
    `DeleteRest` lemmas remove the key letters from the alphabet one at a time,
    and each `Cut` lemma states where the removed letter sits. */
module PlayfairExamples {
  import opened Wrappers
  import opened Text
  import opened PlayfairKey
  import opened Playfair

  const MonarchySquare: Square := ["MONAR", "CHYBD", "EFGIK", "LPQST", "UVWXZ"]
  const InstrumentsPairs: seq<string> := ["IN", "ST", "RU", "ME", "NT", "SX"]
  const InstrumentsCipher: seq<string> := ["GA", "TL", "MZ", "CL", "RQ", "XA"]

  /** One pass of the deletion loop on a repeat-free alphabet, with the letter at `k`. */
  lemma DeleteAllStep(a: string, k: nat, b: string, chars: string, rest: string)
    requires NoDup(a) && k < |a| && b == a[..k] + a[k + 1..]
    requires chars != [] && a[k] == chars[0] && rest == chars[1..]
    ensures NoDup(b)
    ensures DeleteAll(a, chars) == DeleteAll(b, rest)
  {
    DeleteAt(a, k);
  }

  lemma DeleteRest0(a: string, chars: string)
    requires a == "ABCDEFGHIKLMNOPQRSTUVWXYZ" && chars == "MONARCHY" && NoDup(a)
    ensures DeleteAll(a, chars) == "BDEFGIKLPQSTUVWXZ"
  {
    var b :| b == "ABCDEFGHIKLNOPQRSTUVWXYZ";
    var rest :| rest == "ONARCHY";
    Cut0(a, b, chars, rest);
    DeleteAllStep(a, 11, b, chars, rest);
    DeleteRest1(b, rest);
  }

  lemma Cut0(a: string, b: string, chars: string, rest: string)
    requires a == "ABCDEFGHIKLMNOPQRSTUVWXYZ" && chars == "MONARCHY"
    requires b == "ABCDEFGHIKLNOPQRSTUVWXYZ" && rest == "ONARCHY"
    ensures 11 < |a| && b == a[..11] + a[12..]
    ensures chars != [] && a[11] == chars[0] && rest == chars[1..]
  {
  }

  lemma DeleteRest1(a: string, chars: string)
    requires a == "ABCDEFGHIKLNOPQRSTUVWXYZ" && chars == "ONARCHY" && NoDup(a)
    ensures DeleteAll(a, chars) == "BDEFGIKLPQSTUVWXZ"
  {
    var b :| b == "ABCDEFGHIKLNPQRSTUVWXYZ";
    var rest :| rest == "NARCHY";
    Cut1(a, b, chars, rest);
    DeleteAllStep(a, 12, b, chars, rest);
    DeleteRest2(b, rest);
  }

  lemma Cut1(a: string, b: string, chars: string, rest: string)
    requires a == "ABCDEFGHIKLNOPQRSTUVWXYZ" && chars == "ONARCHY"
    requires b == "ABCDEFGHIKLNPQRSTUVWXYZ" && rest == "NARCHY"
    ensures 12 < |a| && b == a[..12] + a[13..]
    ensures chars != [] && a[12] == chars[0] && rest == chars[1..]
  {
  }

  lemma DeleteRest2(a: string, chars: string)
    requires a == "ABCDEFGHIKLNPQRSTUVWXYZ" && chars == "NARCHY" && NoDup(a)
    ensures DeleteAll(a, chars) == "BDEFGIKLPQSTUVWXZ"
  {
    var b :| b == "ABCDEFGHIKLPQRSTUVWXYZ";
    var rest :| rest == "ARCHY";
    Cut2(a, b, chars, rest);
    DeleteAllStep(a, 11, b, chars, rest);
    DeleteRest3(b, rest);
  }

  lemma Cut2(a: string, b: string, chars: string, rest: string)
    requires a == "ABCDEFGHIKLNPQRSTUVWXYZ" && chars == "NARCHY"
    requires b == "ABCDEFGHIKLPQRSTUVWXYZ" && rest == "ARCHY"
    ensures 11 < |a| && b == a[..11] + a[12..]
    ensures chars != [] && a[11] == chars[0] && rest == chars[1..]
  {
  }

  lemma DeleteRest3(a: string, chars: string)
    requires a == "ABCDEFGHIKLPQRSTUVWXYZ" && chars == "ARCHY" && NoDup(a)
    ensures DeleteAll(a, chars) == "BDEFGIKLPQSTUVWXZ"
  {
    var b :| b == "BCDEFGHIKLPQRSTUVWXYZ";
    var rest :| rest == "RCHY";
    Cut3(a, b, chars, rest);
    DeleteAllStep(a, 0, b, chars, rest);
    DeleteRest4(b, rest);
  }

  lemma Cut3(a: string, b: string, chars: string, rest: string)
    requires a == "ABCDEFGHIKLPQRSTUVWXYZ" && chars == "ARCHY"
    requires b == "BCDEFGHIKLPQRSTUVWXYZ" && rest == "RCHY"
    ensures 0 < |a| && b == a[..0] + a[1..]
    ensures chars != [] && a[0] == chars[0] && rest == chars[1..]
  {
  }

  lemma DeleteRest4(a: string, chars: string)
    requires a == "BCDEFGHIKLPQRSTUVWXYZ" && chars == "RCHY" && NoDup(a)
    ensures DeleteAll(a, chars) == "BDEFGIKLPQSTUVWXZ"
  {
    var b :| b == "BCDEFGHIKLPQSTUVWXYZ";
    var rest :| rest == "CHY";
    Cut4(a, b, chars, rest);
    DeleteAllStep(a, 12, b, chars, rest);
    DeleteRest5(b, rest);
  }

  lemma Cut4(a: string, b: string, chars: string, rest: string)
    requires a == "BCDEFGHIKLPQRSTUVWXYZ" && chars == "RCHY"
    requires b == "BCDEFGHIKLPQSTUVWXYZ" && rest == "CHY"
    ensures 12 < |a| && b == a[..12] + a[13..]
    ensures chars != [] && a[12] == chars[0] && rest == chars[1..]
  {
  }

  lemma DeleteRest5(a: string, chars: string)
    requires a == "BCDEFGHIKLPQSTUVWXYZ" && chars == "CHY" && NoDup(a)
    ensures DeleteAll(a, chars) == "BDEFGIKLPQSTUVWXZ"
  {
    var b :| b == "BDEFGHIKLPQSTUVWXYZ";
    var rest :| rest == "HY";
    Cut5(a, b, chars, rest);
    DeleteAllStep(a, 1, b, chars, rest);
    DeleteRest6(b, rest);
  }

  lemma Cut5(a: string, b: string, chars: string, rest: string)
    requires a == "BCDEFGHIKLPQSTUVWXYZ" && chars == "CHY"
    requires b == "BDEFGHIKLPQSTUVWXYZ" && rest == "HY"
    ensures 1 < |a| && b == a[..1] + a[2..]
    ensures chars != [] && a[1] == chars[0] && rest == chars[1..]
  {
  }

  lemma DeleteRest6(a: string, chars: string)
    requires a == "BDEFGHIKLPQSTUVWXYZ" && chars == "HY" && NoDup(a)
    ensures DeleteAll(a, chars) == "BDEFGIKLPQSTUVWXZ"
  {
    var b :| b == "BDEFGIKLPQSTUVWXYZ";
    var rest :| rest == "Y";
    Cut6(a, b, chars, rest);
    DeleteAllStep(a, 5, b, chars, rest);
    DeleteRest7(b, rest);
  }

  lemma Cut6(a: string, b: string, chars: string, rest: string)
    requires a == "BDEFGHIKLPQSTUVWXYZ" && chars == "HY"
    requires b == "BDEFGIKLPQSTUVWXYZ" && rest == "Y"
    ensures 5 < |a| && b == a[..5] + a[6..]
    ensures chars != [] && a[5] == chars[0] && rest == chars[1..]
  {
  }

  lemma DeleteRest7(a: string, chars: string)
    requires a == "BDEFGIKLPQSTUVWXYZ" && chars == "Y" && NoDup(a)
    ensures DeleteAll(a, chars) == "BDEFGIKLPQSTUVWXZ"
  {
    var b :| b == "BDEFGIKLPQSTUVWXZ";
    var rest :| rest == "";
    Cut7(a, b, chars, rest);
    DeleteAllStep(a, 16, b, chars, rest);
    assert DeleteAll(b, rest) == b;
  }

  lemma Cut7(a: string, b: string, chars: string, rest: string)
    requires a == "BDEFGIKLPQSTUVWXYZ" && chars == "Y"
    requires b == "BDEFGIKLPQSTUVWXZ" && rest == ""
    ensures 16 < |a| && b == a[..16] + a[17..]
    ensures chars != [] && a[16] == chars[0] && rest == chars[1..]
  {
  }

  /** MONARCHY has no repeated letter, so it is kept as it is. */
  lemma MonarchyDedup(key: string)
    requires key == "MONARCHY"
    ensures Dedup(Normalize(key)) == key
  {
    NormalizeFixesUpper(key);
    DedupNoDup(key);
  }

  /** The letters of MONARCHY are kept in order and followed by the rest of the
      alphabet. */
  lemma MonarchyKey(key: string, r: string)
    requires key == "MONARCHY" && r == "MONARCHYBDEFGIKLPQSTUVWXZ"
    ensures PrepareKey(key) == r
  {
    MonarchyDedup(key);
    AlphabetNoDup();
    DeleteRest0(Alphabet, key);
    var rest :| rest == "BDEFGIKLPQSTUVWXZ";
    assert PrepareKey(key) == key + rest;
    MonarchyJoin(key, rest, r);
  }

  lemma MonarchyJoin(key: string, rest: string, r: string)
    requires key == "MONARCHY" && rest == "BDEFGIKLPQSTUVWXZ" && r == "MONARCHYBDEFGIKLPQSTUVWXZ"
    ensures key + rest == r
  {
  }

  /** The key square of MONARCHY, row by row. */
  lemma MonarchyMatrix(key: string)
    requires key == "MONARCHY"
    ensures GenerateMatrix(key) == MonarchySquare
  {
    var r :| r == "MONARCHYBDEFGIKLPQSTUVWXZ";
    MonarchyKey(key, r);
    MonarchyRows(r, GenerateMatrix(key));
  }

  /** Five rows of five, filled from the prepared MONARCHY key. */
  lemma MonarchyRows(r: string, sq: Square)
    requires r == "MONARCHYBDEFGIKLPQSTUVWXZ" && IsSquare5(sq)
    requires forall i, j :: 0 <= i < 5 && 0 <= j < 5 ==> sq[i][j] == r[5 * i + j]
    ensures sq == MonarchySquare
  {
    forall i | 0 <= i < 5
      ensures sq[i] == MonarchySquare[i]
    {
      assert sq[i][0] == MonarchySquare[i][0] && sq[i][1] == MonarchySquare[i][1];
      assert sq[i][2] == MonarchySquare[i][2] && sq[i][3] == MonarchySquare[i][3];
      assert sq[i][4] == MonarchySquare[i][4];
    }
  }

  lemma MonarchyDistinct()
    ensures IsSquare5(MonarchySquare) && Distinct(MonarchySquare)
  {
    var key :| key == "MONARCHY";
    MonarchyMatrix(key);
  }

  /** The pair at cells `a` and `b` encrypts to the letters at the cells the rules pick. */
  lemma PairAt(sq: Square, a: Position, b: Position)
    requires IsSquare5(sq) && Distinct(sq) && InGrid(a) && InGrid(b)
    ensures PairInSquare(sq, [At(sq, a), At(sq, b)])
    ensures EncryptPair(sq, [At(sq, a), At(sq, b)]) == [At(sq, EncryptCells(a, b).0), At(sq, EncryptCells(a, b).1)]
  {
    FindPositionOf(sq, a.row, a.col);
    FindPositionOf(sq, b.row, b.col);
  }

  /** IN to GA: rectangle. */
  lemma PairIN(sq: Square, pair: string)
    requires sq == MonarchySquare && pair == "IN"
    ensures PairInSquare(sq, pair) && EncryptPair(sq, pair) == "GA"
  {
    MonarchyDistinct();
    PairAt(sq, Position(2, 3), Position(0, 2));
  }
  /** ST to TL: same row. */
  lemma PairST(sq: Square, pair: string)
    requires sq == MonarchySquare && pair == "ST"
    ensures PairInSquare(sq, pair) && EncryptPair(sq, pair) == "TL"
  {
    MonarchyDistinct();
    PairAt(sq, Position(3, 3), Position(3, 4));
  }
  /** RU to MZ: rectangle. */
  lemma PairRU(sq: Square, pair: string)
    requires sq == MonarchySquare && pair == "RU"
    ensures PairInSquare(sq, pair) && EncryptPair(sq, pair) == "MZ"
  {
    MonarchyDistinct();
    PairAt(sq, Position(0, 4), Position(4, 0));
  }
  /** ME to CL: same column. */
  lemma PairME(sq: Square, pair: string)
    requires sq == MonarchySquare && pair == "ME"
    ensures PairInSquare(sq, pair) && EncryptPair(sq, pair) == "CL"
  {
    MonarchyDistinct();
    PairAt(sq, Position(0, 0), Position(2, 0));
  }
  /** NT to RQ: rectangle. */
  lemma PairNT(sq: Square, pair: string)
    requires sq == MonarchySquare && pair == "NT"
    ensures PairInSquare(sq, pair) && EncryptPair(sq, pair) == "RQ"
  {
    MonarchyDistinct();
    PairAt(sq, Position(0, 2), Position(3, 4));
  }
  /** SX to XA: same column, wrapping to the top. */
  lemma PairSX(sq: Square, pair: string)
    requires sq == MonarchySquare && pair == "SX"
    ensures PairInSquare(sq, pair) && EncryptPair(sq, pair) == "XA"
  {
    MonarchyDistinct();
    PairAt(sq, Position(3, 3), Position(4, 3));
  }

  lemma InstrumentsPairsEncrypt(sq: Square, ps: seq<string>)
    requires sq == MonarchySquare && ps == InstrumentsPairs
    ensures IsSquare5(sq) && AllInSquare(sq, ps)
    ensures EncryptEach(sq, ps) == InstrumentsCipher
  {
    MonarchyDistinct();
    forall k | 0 <= k < |ps|
      ensures PairInSquare(sq, ps[k]) && EncryptPair(sq, ps[k]) == InstrumentsCipher[k]
    {
      if k == 0 { PairIN(sq, ps[k]); }
      if k == 1 { PairST(sq, ps[k]); }
      if k == 2 { PairRU(sq, ps[k]); }
      if k == 3 { PairME(sq, ps[k]); }
      if k == 4 { PairNT(sq, ps[k]); }
      if k == 5 { PairSX(sq, ps[k]); }
    }
  }

  lemma FlattenPairs(ps: seq<string>, cs: seq<string>)
    requires ps == InstrumentsPairs && cs == InstrumentsCipher
    ensures Flatten(ps) == "INSTRUMENTSX" && Flatten(cs) == "GATLMZCLRQXA"
  {
  }

  lemma InstrumentsLetters(plain: string)
    requires plain == "INSTRUMENTS"
    ensures PrepareLetters(plain) == plain
  {
    PrepareLettersFixes(plain);
  }

  lemma InstrumentsFront()
    ensures Flatten(["IN", "ST", "RU", "ME", "NT"]) + "S" == "INSTRUMENTS"
  {
  }

  lemma LastLetter(t: string)
    requires t == "S"
    ensures LettersOf(Split(t)) == ["SX"]
  {
  }

  /** INSTRUMENTS splits into IN ST RU ME NT SX: the odd last letter is padded. */
  lemma InstrumentsDigraphs(plain: string)
    requires plain == "INSTRUMENTS"
    ensures PrepareText(plain) == InstrumentsPairs
  {
    InstrumentsLetters(plain);
    InstrumentsFront();
    LastLetter("S");
    var front := ["IN", "ST", "RU", "ME", "NT"];
    SplitFlatten(front, "S");
    assert front + ["SX"] == InstrumentsPairs;
  }

  /** The cipher text re-splits into its own pairs, all of distinct letters. */
  lemma CipherDigraphs(cipher: string)
    requires cipher == "GATLMZCLRQXA"
    ensures PrepareText(cipher) == InstrumentsCipher
  {
    var cs := InstrumentsCipher;
    FlattenPairs(InstrumentsPairs, cs);
    PrepareLettersFixes(cipher);
    SplitFlattenAll(cs);
  }

  /** MONARCHY encrypts INSTRUMENTS to GATLMZCLRQXA. */
  lemma InstrumentsEncrypt(key: string, plain: string)
    requires key == "MONARCHY" && plain == "INSTRUMENTS"
    ensures AllInSquare(GenerateMatrix(key), PrepareText(plain))
    ensures EncryptText(key, plain) == Success("GATLMZCLRQXA")
  {
    MonarchyMatrix(key);
    InstrumentsDigraphs(plain);
    var sq, ps := GenerateMatrix(key), PrepareText(plain);
    InstrumentsPairsEncrypt(sq, ps);
    EncryptPairsFlatten(sq, ps);
    FlattenPairs(ps, EncryptEach(sq, ps));
  }

  /** Decrypting GATLMZCLRQXA with MONARCHY gives INSTRUMENTS with its padding X. */
  lemma InstrumentsDecrypt(key: string, cipher: string)
    requires key == "MONARCHY" && cipher == "GATLMZCLRQXA"
    ensures AllInSquare(GenerateMatrix(key), PrepareText(cipher))
    ensures DecryptText(key, cipher) == Success("INSTRUMENTSX")
  {
    MonarchyMatrix(key);
    CipherDigraphs(cipher);
    var sq, ps := GenerateMatrix(key), InstrumentsPairs;
    InstrumentsPairsEncrypt(sq, ps);
    DecryptEach(sq, ps);
    FlattenPairs(ps, InstrumentsCipher);
  }

  /** J is read as I, after spaces are dropped and letters upper-cased. */
  lemma JamLetters(text: string)
    requires text == "j am"
    ensures PrepareLetters(text) == "IAM"
  {
    assert StripSpaces(text[3..]) == "m";
    assert StripSpaces(text[2..]) == "am";
    assert StripSpaces(text[1..]) == "am";
    assert StripSpaces(text) == "jam";
    assert Normalize(text) == "JAM";
  }
}

=== FILE: playfair_key.dfy ===
/** The Playfair key square of `PlayfairCipherGUI` (pfcipher.py):
    `prepare_key`, `generate_matrix` and `find_position`. */
module PlayfairKey {
  import opened Text

  /** The 25-letter alphabet: A to Z without J. */
  const Alphabet: string := "ABCDEFGHIKLMNOPQRSTUVWXYZ"

  predicate NoDup(s: string)
  {
    forall i, j :: 0 <= i < j < |s| ==> s[i] != s[j]
  }

  /** Index of the first occurrence of `c` in `s`. */
  function FirstIndex(s: string, c: char): (k: nat)
    requires c in s
    ensures k < |s| && s[k] == c && c !in s[..k]
  {
    if s[0] == c then 0 else 1 + FirstIndex(s[1..], c)
  }

  /** The letters of `r` occur in `s`, and in the order of their first occurrence there. */
  predicate InOrderOf(r: string, s: string)
  {
    forall i, j :: 0 <= i < j < |r| ==> Before(s, r[i], r[j])
  }

  /** `x` and `y` both occur in `s`, `x` first. */
  predicate Before(s: string, x: char, y: char)
  {
    x in s && y in s && FirstIndex(s, x) < FirstIndex(s, y)
  }

  lemma {:induction false} FirstIndexAppend(p: string, x: char, c: char)
    requires c in p + [x]
    ensures FirstIndex(p + [x], c) == if c in p then FirstIndex(p, c) else |p|
    decreases |p|
  {
    if p != [] && p[0] != c {
      assert (p + [x])[1..] == p[1..] + [x];
      FirstIndexAppend(p[1..], x, c);
    }
  }

  /** `"".join(dict.fromkeys(s))`: each character of `s` once, at its first occurrence. */
  function Dedup(s: string): (r: string)
    ensures NoDup(r)
    ensures forall c :: c in r <==> c in s
    ensures InOrderOf(r, s)
    decreases |s|
  {
    if s == [] then []
    else
      var p, x := s[..|s| - 1], s[|s| - 1];
      assert s == p + [x];
      var d := Dedup(p);
      DedupOrder(p, x, d);
      if x in d then d else d + [x]
  }

  lemma DedupOrder(p: string, x: char, d: string)
    requires NoDup(d) && (forall c :: c in d <==> c in p) && InOrderOf(d, p)
    ensures x in d ==> InOrderOf(d, p + [x])
    ensures x !in d ==> InOrderOf(d + [x], p + [x])
  {
    forall c | c in p
      ensures FirstIndex(p + [x], c) == FirstIndex(p, c)
    {
      FirstIndexAppend(p, x, c);
    }
    if x !in d {
      FirstIndexAppend(p, x, x);
      var e := d + [x];
      forall i, j | 0 <= i < j < |e|
        ensures FirstIndex(p + [x], e[i]) < FirstIndex(p + [x], e[j])
      {
        if j == |d| {
          assert e[i] == d[i];
        } else {
          assert e[i] == d[i] && e[j] == d[j];
        }
      }
    }
  }

  /** `alphabet.replace(ch, "")`. */
  function Delete(a: string, ch: char): (r: string)
    ensures forall c :: c in r <==> c in a && c != ch
    ensures NoDup(a) ==> NoDup(r) && InOrderOf(r, a)
    decreases |a|
  {
    if a == [] then []
    else
      var rest := Delete(a[1..], ch);
      DeleteStep(a, ch, rest);
      (if a[0] == ch then [] else [a[0]]) + rest
  }

  lemma DeleteStep(a: string, ch: char, rest: string)
    requires a != []
    requires forall c :: c in rest <==> c in a[1..] && c != ch
    requires NoDup(a[1..]) ==> NoDup(rest) && InOrderOf(rest, a[1..])
    ensures NoDup(a) ==> NoDup((if a[0] == ch then [] else [a[0]]) + rest)
    ensures NoDup(a) ==> InOrderOf((if a[0] == ch then [] else [a[0]]) + rest, a)
  {
    if NoDup(a) {
      assert NoDup(a[1..]);
      assert a[0] !in a[1..];
      if a[0] == ch {
        assert [] + rest == rest;
        InOrderOfTail(a, rest);
      } else {
        assert a[0] !in rest;
        NoDupCons(a[0], rest);
        InOrderOfTail(a, rest);
        InOrderOfCons(a, rest);
      }
    }
  }

  /** Prepending a new character keeps a text repeat-free. */
  lemma NoDupCons(x: char, r: string)
    requires NoDup(r) && x !in r
    ensures NoDup([x] + r)
  {
    var t := [x] + r;
    forall i, j | 0 <= i < j < |t|
      ensures t[i] != t[j]
    {
      assert t[j] == r[j - 1];
      if i > 0 {
        assert t[i] == r[i - 1];
      } else {
        assert r[j - 1] in r;
      }
    }
  }

  /** A text ordered by the tail of a repeat-free `a` is ordered by `a`. */
  lemma InOrderOfTail(a: string, r: string)
    requires a != [] && NoDup(a) && InOrderOf(r, a[1..])
    ensures InOrderOf(r, a)
  {
    var b := a[1..];
    forall i, j | 0 <= i < j < |r|
      ensures r[i] in a && r[j] in a && FirstIndex(a, r[i]) < FirstIndex(a, r[j])
    {
      var x, y := r[i], r[j];
      assert x in b && y in b && FirstIndex(b, x) < FirstIndex(b, y);
      FirstIndexTail(a, x);
      FirstIndexTail(a, y);
    }
  }

  /** In a repeat-free text, a character after the first sits one further along. */
  lemma FirstIndexTail(a: string, c: char)
    requires a != [] && NoDup(a) && c in a[1..]
    ensures c in a && FirstIndex(a, c) == 1 + FirstIndex(a[1..], c)
  {
    var k := FirstIndex(a[1..], c);
    assert a[k + 1] == c;
  }

  /** The first character of `a` comes before everything ordered by `a`. */
  lemma InOrderOfCons(a: string, r: string)
    requires a != [] && NoDup(a) && InOrderOf(r, a) && forall c :: c in r ==> c in a[1..]
    ensures InOrderOf([a[0]] + r, a)
  {
    var t := [a[0]] + r;
    forall c | c in a[1..]
      ensures FirstIndex(a, c) > 0
    {
      FirstIndexTail(a, c);
    }
    forall i, j | 0 <= i < j < |t|
      ensures t[i] in a && t[j] in a && FirstIndex(a, t[i]) < FirstIndex(a, t[j])
    {
      assert t[j] == r[j - 1];
      assert r[j - 1] in r;
      if i > 0 {
        assert t[i] == r[i - 1];
      } else {
        assert FirstIndex(a, t[0]) == 0;
      }
    }
  }

  /** A text without repeats is kept as it is by `Dedup`. */
  lemma {:induction false} DedupNoDup(s: string)
    requires NoDup(s)
    ensures Dedup(s) == s
    decreases |s|
  {
    if s != [] {
      var p, x := s[..|s| - 1], s[|s| - 1];
      assert s == p + [x];
      assert NoDup(p);
      DedupNoDup(p);
      assert x !in p;
    }
  }

  /** Deleting a character that does not occur changes nothing. */
  lemma {:induction false} DeleteAbsent(a: string, ch: char)
    requires ch !in a
    ensures Delete(a, ch) == a
    decreases |a|
  {
    if a != [] {
      DeleteAbsent(a[1..], ch);
      assert a == [a[0]] + a[1..];
    }
  }

  /** In a text without repeats, deleting the character at `k` removes exactly that cell. */
  lemma {:induction false} DeleteAt(a: string, k: nat)
    requires NoDup(a) && k < |a|
    ensures Delete(a, a[k]) == a[..k] + a[k + 1..]
    decreases |a|
  {
    assert a == [a[0]] + a[1..];
    if k == 0 {
      assert a[0] !in a[1..];
      DeleteAbsent(a[1..], a[0]);
    } else {
      assert a[0] != a[k];
      assert NoDup(a[1..]) && a[1..][k - 1] == a[k];
      DeleteAt(a[1..], k - 1);
      assert a[1..][..k - 1] == a[1..k] && a[1..][k..] == a[k + 1..];
      assert a[..k] == [a[0]] + a[1..k];
    }
  }

  /** Ordering is transitive: a subsequence of a subsequence is a subsequence. */
  lemma InOrderOfTrans(r: string, b: string, a: string)
    requires InOrderOf(r, b) && InOrderOf(b, a) && NoDup(a)
    requires forall c :: c in r ==> c in b
    ensures InOrderOf(r, a)
  {
    forall i, j | 0 <= i < j < |r|
      ensures r[i] in a && r[j] in a && FirstIndex(a, r[i]) < FirstIndex(a, r[j])
    {
      assert r[i] in r && r[j] in r;
      var p, q := FirstIndex(b, r[i]), FirstIndex(b, r[j]);
      assert b[p] == r[i] && b[q] == r[j];
      assert p < q;
      assert b[p] in a && b[q] in a && FirstIndex(a, b[p]) < FirstIndex(a, b[q]);
    }
  }

  /** The loop `for char in chars: alphabet = alphabet.replace(char, "")`. */
  function DeleteAll(a: string, chars: string): (r: string)
    ensures forall c :: c in r <==> c in a && c !in chars
    ensures NoDup(a) ==> NoDup(r) && InOrderOf(r, a)
    decreases |chars|
  {
    if chars == [] then
      assert NoDup(a) ==> InOrderOf(a, a) by {
        if NoDup(a) {
          forall i, j | 0 <= i < j < |a|
            ensures FirstIndex(a, a[i]) < FirstIndex(a, a[j])
          {
            assert FirstIndex(a, a[i]) == i && FirstIndex(a, a[j]) == j;
          }
        }
      }
      a
    else
      var b := Delete(a, chars[0]);
      var r := DeleteAll(b, chars[1..]);
      assert forall c :: c in chars <==> c == chars[0] || c in chars[1..];
      assert NoDup(a) ==> InOrderOf(r, a) by {
        if NoDup(a) {
          InOrderOfTrans(r, b, a);
        }
      }
      r
  }

  /** The set of characters of `s`. */
  function Chars(s: string): set<char>
  {
    set c | c in s
  }

  lemma {:induction false} NoDupChars(s: string)
    requires NoDup(s)
    ensures |Chars(s)| == |s|
    decreases |s|
  {
    if s != [] {
      var p := s[..|s| - 1];
      assert s == p + [s[|s| - 1]];
      assert Chars(s) == Chars(p) + {s[|s| - 1]};
      NoDupChars(p);
    }
  }

  lemma SubsetCard(a: set<char>, b: set<char>)
    requires a <= b
    ensures |a| <= |b|
  {
    assert b == a + (b - a);
  }

  /** Each character is below the next one. */
  predicate Ascending(s: string)
  {
    forall i :: 0 <= i < |s| - 1 ==> s[i] < s[i + 1]
  }

  lemma {:induction false} AscendingNoDup(s: string)
    requires Ascending(s)
    ensures NoDup(s) && forall i :: 0 < i < |s| ==> s[0] < s[i]
    decreases |s|
  {
    if s != [] {
      var t := s[1..];
      assert Ascending(t) by {
        forall i | 0 <= i < |t| - 1
          ensures t[i] < t[i + 1]
        {
          assert t[i] == s[i + 1] && t[i + 1] == s[i + 2];
        }
      }
      AscendingNoDup(t);
      forall i | 0 < i < |s|
        ensures s[0] < s[i]
      {
        if i > 1 {
          assert s[i] == t[i - 1];
        }
      }
      forall i, j | 0 <= i < j < |s|
        ensures s[i] != s[j]
      {
        if i > 0 {
          assert s[i] == t[i - 1] && s[j] == t[j - 1];
        }
      }
    }
  }

  lemma AlphabetNoDup()
    ensures NoDup(Alphabet) && |Alphabet| == 25
  {
    assert Ascending(Alphabet);
    AscendingNoDup(Alphabet);
  }

  lemma AlphabetFacts()
    ensures NoDup(Alphabet) && |Alphabet| == 25 && |Chars(Alphabet)| == 25
  {
    AlphabetNoDup();
    NoDupChars(Alphabet);
  }

  /** Joining two repeat-free texts with no common character is repeat-free. */
  lemma NoDupAppend(d: string, e: string)
    requires NoDup(d) && NoDup(e) && forall c :: c in d ==> c !in e
    ensures NoDup(d + e)
  {
    var r := d + e;
    forall i, j | 0 <= i < j < |r|
      ensures r[i] != r[j]
    {
      if j < |d| {
        assert r[i] == d[i] && r[j] == d[j];
      } else if i >= |d| {
        assert r[i] == e[i - |d|] && r[j] == e[j - |d|];
      } else {
        assert r[i] == d[i] && r[j] == e[j - |d|];
        assert r[i] in d;
      }
    }
  }

  /** `prepare_key`: the normalised key without repeats, then the letters of
      the alphabet the key does not use, in alphabet order. */
  function PrepareKey(key: string): (r: string)
    ensures NoDup(r)
    ensures |Dedup(Normalize(key))| <= |r|
    ensures r[..|Dedup(Normalize(key))|] == Dedup(Normalize(key))
    ensures InOrderOf(r[|Dedup(Normalize(key))|..], Alphabet)
    ensures forall c :: c in r <==> c in Normalize(key) || c in Alphabet
    ensures |r| >= 25
  {
    var d := Dedup(Normalize(key));
    var rest := DeleteAll(Alphabet, d);
    AlphabetFacts();
    NoDupAppend(d, rest);
    PrepareKeyCard(d + rest);
    assert (d + rest)[..|d|] == d && (d + rest)[|d|..] == rest;
    d + rest
  }

  lemma PrepareKeyCard(r: string)
    requires NoDup(r) && forall c :: c in Alphabet ==> c in r
    ensures |r| >= 25
  {
    AlphabetFacts();
    NoDupChars(r);
    SubsetCard(Chars(Alphabet), Chars(r));
  }

  /** The key square has exactly 25 letters precisely when every key character
      is one of the 25 alphabet letters; a J or any other character lengthens it. */
  lemma PrepareKeyLength(key: string)
    ensures |PrepareKey(key)| == 25 <==> forall c :: c in Normalize(key) ==> c in Alphabet
  {
    var r := PrepareKey(key);
    if forall c :: c in Normalize(key) ==> c in Alphabet {
      OnlyAlphabet(r);
    } else {
      var c :| c in Normalize(key) && c !in Alphabet;
      Beyond(r, c);
    }
  }

  lemma OnlyAlphabet(r: string)
    requires NoDup(r) && forall c :: c in r <==> c in Alphabet
    ensures |r| == 25
  {
    AlphabetFacts();
    NoDupChars(r);
    assert Chars(r) == Chars(Alphabet);
  }

  lemma Beyond(r: string, c: char)
    requires NoDup(r) && (forall a :: a in Alphabet ==> a in r) && c in r && c !in Alphabet
    ensures |r| > 25
  {
    AlphabetFacts();
    NoDupChars(r);
    assert |Chars(Alphabet) + {c}| == 26;
    SubsetCard(Chars(Alphabet) + {c}, Chars(r));
  }

  /** A 5-by-5 grid of letters. */
  type Square = seq<seq<char>>

  predicate IsSquare5(sq: Square)
  {
    |sq| == 5 && forall i :: 0 <= i < 5 ==> |sq[i]| == 5
  }

  /** No letter sits in two cells. */
  predicate Distinct(sq: Square)
    requires IsSquare5(sq)
  {
    forall i1, j1, i2, j2 ::
      0 <= i1 < 5 && 0 <= j1 < 5 && 0 <= i2 < 5 && 0 <= j2 < 5 && (i1 != i2 || j1 != j2)
      ==> sq[i1][j1] != sq[i2][j2]
  }

  predicate InSquare(sq: Square, c: char)
    requires IsSquare5(sq)
  {
    exists i, j :: 0 <= i < 5 && 0 <= j < 5 && sq[i][j] == c
  }

  /** The square holds each of the 25 alphabet letters in exactly one cell and nothing else. */
  predicate IsPermutationOfAlphabet(sq: Square)
  {
    && IsSquare5(sq)
    && Distinct(sq)
    && (forall i, j :: 0 <= i < 5 && 0 <= j < 5 ==> sq[i][j] in Alphabet)
    && (forall c :: c in Alphabet ==> InSquare(sq, c))
  }

  /** `generate_matrix`: the first 25 characters of the prepared key, row by row. */
  function GenerateMatrix(key: string): (sq: Square)
    ensures IsSquare5(sq)
    ensures forall i, j :: 0 <= i < 5 && 0 <= j < 5 ==> sq[i][j] == PrepareKey(key)[5 * i + j]
    ensures Distinct(sq)
  {
    var k := PrepareKey(key);
    LayoutDistinct(k);
    Layout(k)
  }

  /** The cells filled from `k` with the counter `k += 1` of the nested loops. */
  function Layout(k: string): (sq: Square)
    requires |k| >= 25
    ensures IsSquare5(sq)
    ensures forall i, j :: 0 <= i < 5 && 0 <= j < 5 ==> sq[i][j] == k[5 * i + j]
  {
    seq(5, i requires 0 <= i < 5 => k[5 * i .. 5 * i + 5])
  }

  lemma LayoutDistinct(k: string)
    requires |k| >= 25 && NoDup(k)
    ensures Distinct(Layout(k))
  {
    var sq := Layout(k);
    forall i1, j1, i2, j2 |
      0 <= i1 < 5 && 0 <= j1 < 5 && 0 <= i2 < 5 && 0 <= j2 < 5 && (i1 != i2 || j1 != j2)
      ensures sq[i1][j1] != sq[i2][j2]
    {
      var t1, t2 := 5 * i1 + j1, 5 * i2 + j2;
      assert t1 != t2;
      assert sq[i1][j1] == k[t1] && sq[i2][j2] == k[t2];
    }
  }

  /** With a key of alphabet letters only, the square is a permutation of the alphabet. */
  lemma SquareIsPermutation(key: string)
    requires forall c :: c in Normalize(key) ==> c in Alphabet
    ensures IsPermutationOfAlphabet(GenerateMatrix(key))
  {
    var k := PrepareKey(key);
    PrepareKeyLength(key);
    assert forall c :: c in k <==> c in Alphabet;
    LayoutDistinct(k);
    LayoutPermutation(k);
    assert GenerateMatrix(key) == Layout(k);
  }

  lemma LayoutPermutation(k: string)
    requires |k| == 25 && NoDup(k) && forall c :: c in k <==> c in Alphabet
    ensures Distinct(Layout(k)) ==> IsPermutationOfAlphabet(Layout(k))
  {
    var sq := Layout(k);
    forall i, j | 0 <= i < 5 && 0 <= j < 5
      ensures sq[i][j] in Alphabet
    {
      assert k[5 * i + j] in k;
    }
    forall c | c in Alphabet
      ensures InSquare(sq, c)
    {
      var t := FirstIndex(k, c);
      assert sq[t / 5][t % 5] == c;
    }
  }

  /** A cell of the square. */
  datatype Position = Position(row: int, col: int)

  /** The cell at row-major index `t`. */
  function Cell(sq: Square, t: int): char
    requires IsSquare5(sq) && 0 <= t < 25
  {
    sq[t / 5][t % 5]
  }

  /** The nested loops of `find_position`, resumed at row-major index `t`. */
  function FindFrom(sq: Square, c: char, t: int): (p: Position)
    requires IsSquare5(sq) && 0 <= t < 25
    requires exists u :: t <= u < 25 && Cell(sq, u) == c
    ensures 0 <= p.row < 5 && 0 <= p.col < 5 && sq[p.row][p.col] == c
    ensures t <= 5 * p.row + p.col
    ensures forall u :: t <= u < 5 * p.row + p.col ==> Cell(sq, u) != c
    decreases 25 - t
  {
    if Cell(sq, t) == c then Position(t / 5, t % 5) else FindFrom(sq, c, t + 1)
  }

  /** `find_position`: the first cell, row by row, that holds `c`. */
  function FindPosition(sq: Square, c: char): (p: Position)
    requires IsSquare5(sq) && InSquare(sq, c)
    ensures 0 <= p.row < 5 && 0 <= p.col < 5 && sq[p.row][p.col] == c
    ensures forall i, j :: 0 <= i < 5 && 0 <= j < 5 && 5 * i + j < 5 * p.row + p.col ==> sq[i][j] != c
  {
    assert forall i, j :: 0 <= i < 5 && 0 <= j < 5 ==> Cell(sq, 5 * i + j) == sq[i][j];
    FindFrom(sq, c, 0)
  }

  /** In a square without repeats a letter is found exactly where it is. */
  lemma FindPositionOf(sq: Square, i: int, j: int)
    requires IsSquare5(sq) && Distinct(sq) && 0 <= i < 5 && 0 <= j < 5
    ensures InSquare(sq, sq[i][j])
    ensures FindPosition(sq, sq[i][j]) == Position(i, j)
  {
  }
}

=== FILE: text.dfy ===
/** The text normalisation both engines apply first: `text.replace(" ", "").upper()`.
    Upper-casing is modelled for ASCII only; every other character is left unchanged. */
module Text {

  predicate IsUpperLetter(c: char) { 'A' <= c <= 'Z' }

  predicate IsLowerLetter(c: char) { 'a' <= c <= 'z' }

  /** `str.upper` on one ASCII character: a lower-case letter becomes the
      upper-case letter at the same position in the alphabet. */
  function UpperChar(c: char): (r: char)
    ensures IsLowerLetter(c) ==> IsUpperLetter(r) && r as int - 'A' as int == c as int - 'a' as int
    ensures !IsLowerLetter(c) ==> r == c
  {
    if IsLowerLetter(c) then (c as int - 32) as char else c
  }

  /** `s.replace(" ", "")`: the characters of `s` other than spaces, in order. */
  function StripSpaces(s: string): (r: string)
    ensures |r| <= |s|
    ensures forall c :: c in r <==> c in s && c != ' '
  {
    if s == [] then [] else (if s[0] == ' ' then [] else [s[0]]) + StripSpaces(s[1..])
  }

  /** Stripping spaces is a homomorphism for concatenation. */
  lemma {:induction false} StripSpacesAppend(a: string, b: string)
    ensures StripSpaces(a + b) == StripSpaces(a) + StripSpaces(b)
  {
    if a == [] {
      assert a + b == b;
    } else {
      assert (a + b)[1..] == a[1..] + b;
      StripSpacesAppend(a[1..], b);
    }
  }

  /** A text without spaces is left as it is. */
  lemma {:induction false} StripSpacesFixes(s: string)
    requires ' ' !in s
    ensures StripSpaces(s) == s
  {
    if s != [] {
      StripSpacesFixes(s[1..]);
    }
  }

  /** `text.replace(" ", "").upper()` as both engines write it. */
  function Normalize(s: string): (r: string)
    ensures |r| <= |s|
    ensures forall i :: 0 <= i < |r| ==> r[i] != ' ' && !IsLowerLetter(r[i])
  {
    var t := StripSpaces(s);
    assert forall i :: 0 <= i < |t| ==> t[i] in t;
    seq(|t|, i requires 0 <= i < |t| => UpperChar(t[i]))
  }

  /** Text made of upper-case letters is already normalised. */
  lemma NormalizeFixesUpper(s: string)
    requires forall i :: 0 <= i < |s| ==> IsUpperLetter(s[i])
    ensures Normalize(s) == s
  {
    StripSpacesFixes(s);
  }

  /** Text made only of ASCII letters and spaces normalises to upper-case letters. */
  lemma NormalizeLetters(s: string)
    requires forall i :: 0 <= i < |s| ==> s[i] == ' ' || IsUpperLetter(s[i]) || IsLowerLetter(s[i])
    ensures forall i :: 0 <= i < |Normalize(s)| ==> IsUpperLetter(Normalize(s)[i])
  {
    var t := StripSpaces(s);
    forall i | 0 <= i < |t|
      ensures IsUpperLetter(UpperChar(t[i]))
    {
      assert t[i] in s;
    }
  }

  /** The empty text, and a text of one character: a space vanishes and any
      other character is upper-cased. With `NormalizeAppend` this determines
      `Normalize` on every text. */
  lemma NormalizeChar(c: char)
    ensures Normalize([]) == []
    ensures Normalize([c]) == if c == ' ' then [] else [UpperChar(c)]
  {
    assert [c][1..] == [];
  }

  /** Normalisation is a homomorphism for concatenation. */
  lemma NormalizeAppend(a: string, b: string)
    ensures Normalize(a + b) == Normalize(a) + Normalize(b)
  {
    StripSpacesAppend(a, b);
    var sa, sb := StripSpaces(a), StripSpaces(b);
    var n, na, nb := Normalize(a + b), Normalize(a), Normalize(b);
    assert |n| == |sa| + |sb|;
    forall i | 0 <= i < |n|
      ensures n[i] == (na + nb)[i]
    {
      if i < |sa| {
        assert (sa + sb)[i] == sa[i];
      } else {
        assert (sa + sb)[i] == sb[i - |sa|];
      }
    }
  }
}

=== FILE: wrappers.dfy ===
/** Failure-carrying return types shared by both cipher engines. */
module Wrappers {

  /** A value that may be absent, as Python's `None` return of `modinv`. */
  datatype Option<+T> = None | Some(value: T)

  /** Either a produced value or the error the GUI would have shown in a dialog. */
  datatype Result<+T, +E> = Success(value: T) | Failure(error: E)
}
